=== FILE: README.md ===
# MinuteEssays in Dafny

A model of the logic behind MinuteEssays, a timed writing exercise. The
writer gets a topic and writes five sections: an introduction, three key
points and a conclusion. A hard limit of 300 seconds applies. When the last
section is submitted or the clock runs out, the essay is scored. The score
is a word total and words per minute. The essay is then saved to a
browser-local history, and the results screen offers a review prompt to
copy into an external assistant.

The model is purely functional. Each React handler and each effect is one
transition on an immutable `App.State`. The clock tick is "one more second,
then the auto-submit check". Several things come in as parameters:

- the random topic pick;
- the record id and date;
- whether the browser's storage rejects a write or a removal;
- the answer to the confirmation dialog;
- the wall clock in the lobby.

| module | file | models |
|---|---|---|
| `Common` | common.dfy | `Option`, `Math.max`, sequence regrouping |
| `Text` | text.dfy | JavaScript `\s`, `trim()`, `split` on `/\s+/` and `/[.!?]+/`, word and sentence counts, and independent counts of maximal runs and of sentences |
| `Dict` | dict.dfy | a JavaScript object as an insertion-ordered list of entries: lookup, spread-with-override, `Object.values` |
| `Catalog` | catalog.dfy | `constants.ts`: the time limit, the five sections, the ten topics |
| `Types` | types.dfy | `types.ts`: phases, essay data, history records |
| `Scoring` | scoring.dfy | the word total and the guarded words-per-minute of `finishEssay` |
| `WritingCard` | writing_card.dfy | words remaining, the progress label, the captions |
| `Timer` | timer.dfy | remaining time, the clock split, the urgency bands and label |
| `ResultView` | result_view.dfy | the summary numbers, the unguarded speed, the per-section rows |
| `Lobby` | lobby.dfy | `handleSyncStart`: the wait until the next 10-second boundary and the polling countdown |
| `Storage` | storage.dfy | `utils/storage.ts` over an abstract store |
| `ReviewPrompt` | review_prompt.dfy | `generateReviewPrompt` |
| `App` | app.dfy | the session state machine of `App.tsx` |
| `AppTheorems` | app_theorems.dfy | properties of whole runs of the state machine |

Division and rounding are computed exactly on integers and rationals:

- `Math.round(a / b)` rounds half up;
- `Math.ceil(a / b)` for positive operands is computed exactly;
- the lobby's `%` on a timestamp is JavaScript's truncating remainder.

Where the source divides by zero, the result is an explicit
`Finite | Infinity | NaN` value.

## Model

| member | source | states |
|---|---|---|
| Common.Max | components/WritingCard.tsx:19 | `Math.max` is at least each argument and equals one of them |
| Text.DropLeading | components/WritingCard.tsx:17 | the leading part `trim` removes is all whitespace, what is left is a suffix of the input, and it does not start with whitespace |
| Text.DropTrailing | components/WritingCard.tsx:17 | the trailing part `trim` removes is all whitespace, what is left is a prefix, and it does not end with whitespace |
| Text.TrimIsMiddle | components/WritingCard.tsx:17 | `trim()` leaves the part of the text between a whitespace-only prefix and a whitespace-only suffix, which neither starts nor ends with whitespace |
| Text.TrimEmptyIffBlank | components/WritingCard.tsx:18 | `s.trim().length > 0` holds exactly when `s` has a non-whitespace character |
| Text.Split | components/WritingCard.tsx:17-18 | `split` always yields at least one piece, including for the empty string |
| Text.SplitPiecesHaveNoDelimiter | components/WritingCard.tsx:17-18 | no piece of a split contains a character of the class it was split on |
| Text.SplitWithoutDelimiter | components/WritingCard.tsx:18 | text without a terminator splits into itself alone |
| Text.SplitSnoc | components/WritingCard.tsx:17-18 | typing one more delimiter adds one empty last piece, unless the text already ends in a delimiter, in which case the pieces do not change |
| Text.CountKeptAppend | components/WritingCard.tsx:17-18 | `filter(...).length` over a concatenation of piece lists is the sum of the two counts |
| Text.SplitKeepsText | components/WritingCard.tsx:17-18 | the pieces of a split, joined back together, are the text with its delimiters removed |
| Text.SplitCountsRuns | components/WritingCard.tsx:17 | the non-empty pieces of a split are as many as the maximal runs of non-delimiters |
| Text.WordCount | components/WritingCard.tsx:17 | the word count equals the number of maximal non-whitespace runs of the untrimmed text |
| Text.RunsZeroIffBlank | components/WritingCard.tsx:17 | text has no non-whitespace run exactly when it is blank |
| Text.WordCountZeroIffBlank | components/WritingCard.tsx:17 | the word count is 0 exactly for empty or whitespace-only text |
| Text.WordCountIgnoresTrailingSpace | components/WritingCard.tsx:17 | appending a whitespace character at the end of the text never changes the word count |
| Text.SentenceCount | components/WritingCard.tsx:18 | the sentence count equals the number of maximal runs of characters other than `.`, `!`, `?` that hold a non-whitespace character |
| Text.SentenceCountZeroIff | components/WritingCard.tsx:18 | the sentence count is 0 exactly when the text holds only whitespace and `.`, `!`, `?` |
| Text.SentenceWithoutTerminator | components/WritingCard.tsx:18 | non-blank text with no terminator counts as one sentence |
| Text.TrailingTerminatorAddsNoSentence | components/WritingCard.tsx:18 | typing a terminator at the end never changes the sentence count |
| Dict.Values | App.tsx:31 | `Object.values` lists every entry's value, in entry order |
| Dict.Get | components/ResultView.tsx:80 | the section lookup `data.sections[section.id]` (and the same read at services/geminiService.ts:8) finds a value exactly for present keys, and the value found is stored under that key |
| Dict.Put | App.tsx:109-112 | `{...d, [k]: v}` maps `k` to `v` and leaves every other key's value alone; a new key goes last, and an existing key leaves the length unchanged |
| Dict.PutKeepsPlace | App.tsx:109-112 | overwriting an existing key keeps every entry in its position: entries under other keys are unchanged and the key's own entry stays where it was |
| Dict.PutKeepsKeysUnique | App.tsx:109-112 | the spread-with-override never duplicates a key |
| Dict.KeysMembership | App.tsx:109-112 | a key is present exactly when some entry carries it |
| Dict.ValuesAppend | App.tsx:31 | the values of two concatenated entry lists are the concatenated values |
| Catalog.CatalogShape | constants.ts:3-49 | the limit is 300 s; there are five sections intro, point1, point2, point3, conclusion with targets 50, 60, 60, 60, 50; there are ten topics |
| Catalog.IdsDistinct | constants.ts:7-32 | the five section ids are pairwise distinct |
| Catalog.SuggestedCountsPositive | constants.ts:10-34 | every section's target word count is positive |
| Catalog.IdsBeforeMembership | constants.ts:5-36 | an id belongs to the first `n` sections exactly when one of them carries it |
| Catalog.IdsBeforeExcludes | constants.ts:5-36 | a section's id is not among the ids of the sections before it |
| Catalog.AllIdsSpelledOut | constants.ts:5-36 | the catalog ids are exactly intro, point1, point2, point3, conclusion |
| Scoring.RoundHalfUp | App.tsx:36 | `Math.round(num / den)` is the integer nearest the quotient, with halves rounded up |
| Scoring.Wpm | App.tsx:34-36 | the speed rounds `totalWords * 60 / safeTime`, where `safeTime` is 1 for a time of 0; it is 0 for no words |
| Scoring.TotalWordsAppend | App.tsx:31-33 | the word total of two lists of texts is the sum of their totals |
| Scoring.TotalWords | App.tsx:31-33 | the word total is 0 exactly when every text is blank |
| Scoring.ContentWordsZeroIff | App.tsx:31-33 | the word total of an essay's sections is 0 exactly when every section is blank |
| Scoring.PutNewKeyWords | App.tsx:31-33 | adding a new section text adds exactly its word count to the total |
| Scoring.WpmThreeWordsFiveMinutes | App.tsx:36 | three words in 300 seconds score 1 word per minute |
| Scoring.WpmAtZeroTime | App.tsx:35-36 | at time 0 the guarded speed is the words per single second times 60 |
| WritingCard.WordsRemaining | components/WritingCard.tsx:19 | the words still to go are the target minus the word count, floored at 0 |
| WritingCard.WordsRemainingBounds | components/WritingCard.tsx:19 | for a non-negative target, the words still to go lie between 0 and the target |
| WritingCard.ProgressLabel | components/WritingCard.tsx:66-68 | "Target met" shows exactly when the word count reaches the target; otherwise the positive shortfall shows |
| WritingCard.BlankTextLeavesWholeTarget | components/WritingCard.tsx:17-19 | with nothing written yet, the whole target is still to go |
| WritingCard.CaptionsFor | components/WritingCard.tsx:81-87 | "Final Section" and "Submit Essay" appear exactly on the last section; every other section shows "Press Enter to continue" and "Next Section" |
| Timer.Remaining | components/Timer.tsx:9 | the remaining time is the limit minus the elapsed seconds, floored at 0 |
| Timer.RemainingBounds | components/Timer.tsx:9 | for non-negative inputs the remaining time lies between 0 and the limit |
| Timer.RemainingNonIncreasing | components/Timer.tsx:9 | the remaining time never grows as seconds elapse |
| Timer.ToClock | components/Timer.tsx:10-11 | minutes times 60 plus seconds gives back the total, and the seconds are below 60 |
| Timer.LookFor | components/Timer.tsx:14-19 | red exactly at 10 s or less, amber exactly between 11 and 60 s, plain otherwise |
| Timer.BandsDisjoint | components/Timer.tsx:14-15 | urgent and critical never hold together |
| Timer.Label | components/Timer.tsx:27 | "Hurry!" shows exactly when critical, "Time Left" otherwise |
| Timer.ProgressFillIffCalm | components/Timer.tsx:34 | the progress fill is drawn exactly in the plain band |
| Lobby.JsRem | components/Lobby.tsx:44 | JavaScript's `%` leaves a remainder with the sign of the dividend and a magnitude below the divisor |
| Lobby.CeilDiv | components/Lobby.tsx:49-57 | `Math.ceil(a / b)` is the least whole number of periods that covers `a` |
| Lobby.SyncWait | components/Lobby.tsx:44 | the wait is at least 1 ms and ends on a 10-second boundary; it is at most 10 s for clocks after the epoch |
| Lobby.BoundaryWaitsFullPeriod | components/Lobby.tsx:44 | a request exactly on a boundary waits a full 10 s |
| Lobby.TargetIsNextBoundary | components/Lobby.tsx:44-47 | the target is the first 10-second boundary strictly after `now` |
| Lobby.SyncStart | components/Lobby.tsx:40-49 | called only while the sync button is shown (no countdown yet); the target is a 10-second boundary after `now`, and for clocks after the epoch the first one; the countdown is the wait to it in whole seconds rounded up, between 1 and 10; nothing has started yet |
| Lobby.Poll | components/Lobby.tsx:51-59 | a poll starts the session exactly when the target is reached; otherwise it shows the seconds left, rounded up; after the start nothing changes |
| Lobby.SyncStartLocksControls | components/Lobby.tsx:120-132 | after a sync start from the shown button, however many polls follow, the button stays hidden and cancel stays disabled |
| Lobby.PollKeepsCountdown | components/Lobby.tsx:49-58 | once a countdown is shown, polling never removes it |
| Lobby.StartFiresOnce | components/Lobby.tsx:53-55 | `onStart` fires at most once: later polls change nothing |
| Storage.Load | utils/storage.ts:15-22 | a missing, empty or unparseable payload reads as no history; a stored list reads as itself |
| Storage.Save | utils/storage.ts:5-13 | a successful save puts the record in front of what was readable; a failed write leaves the store as it was; other keys are untouched |
| Storage.Clear | utils/storage.ts:24-26 | the removal throws exactly when storage rejects it; otherwise the history key is gone and other keys are untouched |
| Storage.SaveThenLoad | utils/storage.ts:7-9 | after a save the new record is first and the list grew by one |
| Storage.ClearThenLoad | utils/storage.ts:15-26 | after a successful clear the history reads as empty |
| Storage.SaveOverCorrupt | utils/storage.ts:5-21 | saving over an unparseable payload stores a one-record list |
| ReviewPrompt.SectionText | services/geminiService.ts:8 | a missing or empty section shows as "(No content)", and any other text shows as itself |
| ReviewPrompt.BlocksInCatalogOrder | services/geminiService.ts:7-9 | the blocks come one per catalog section, in catalog order |
| ReviewPrompt.GenerateReviewPrompt | services/geminiService.ts:4-25 | the prompt opens with the fixed instructions followed by the topic line, and ends with the fixed closing instructions |
| ReviewPrompt.PromptLayout | services/geminiService.ts:4-25 | the prompt is the fixed preamble ending in `---`, the topic line, the five blocks in order, then `---` and the fixed instructions |
| ReviewPrompt.BlockLayout | services/geminiService.ts:8 | each block is `[Title]`, a newline, the section text or placeholder, and a blank line, for the five catalog titles |
| ReviewPrompt.BlocksIgnoreOtherKeys | services/geminiService.ts:7-8 | essays that agree on the listed ids give the same blocks |
| ReviewPrompt.PromptIgnoresOtherKeys | services/geminiService.ts:7 | entries whose keys are not catalog ids never affect the prompt |
| ReviewPrompt.PromptIgnoresTime | services/geminiService.ts:4-25 | the prompt does not depend on the elapsed time |
| ResultView.Summarize | components/ResultView.tsx:34-40 | minutes times 60 plus seconds is the total time with seconds below 60; overtime exactly above 300 s; the word total is 0 exactly when every shown section is blank |
| ResultView.WpmAsWritten | components/ResultView.tsx:42 | for a positive time the shown speed matches the saved one; at time 0 it is Infinity with words and NaN without |
| ResultView.WpmAsWrittenAtZeroTime | components/ResultView.tsx:42 | three words at time 0 show as Infinity where the record saves 180; no words show as NaN where the record saves 0 |
| ResultView.GuardedWpm | components/ResultView.tsx:42 | with the zero guard of `finishEssay` the shown speed is always a finite non-negative number and agrees with the saved one |
| ResultView.Show | components/ResultView.tsx:80 | a section shows "No content written." exactly when its text is missing or empty, and otherwise shows its text |
| ResultView.Rows | components/ResultView.tsx:76-80 | one row per catalog section in catalog order, titled by the catalog, each showing its text or the placeholder |
| App.Mount | App.tsx:24-27 | the first state is idle, with the history read from storage, and satisfies the invariant |
| App.Finish | App.tsx:29-50 | a completed session puts one record in front of the history: the given content and time, the word total's speed, the topic, and the supplied id and date. Storage receives it unless the write fails. Nothing else changes |
| App.StartSession | App.tsx:92-103 | the topic is the trimmed custom input if non-empty, otherwise one of the ten topics; index, text, content and clock are reset and writing begins |
| App.TypeTopic | App.tsx:152 | typing into the topic box only changes the custom topic |
| App.EditText | App.tsx:200 | typing only changes the current text |
| App.NextSection | App.tsx:105-121 | the current text is stored under the current id with other ids untouched, and the text is cleared. Before the last section the index moves on and every other field, the custom topic included, is unchanged. On the last, the session completes, saving exactly the stored content and the time so far |
| App.TimeoutCheck | App.tsx:79-89 | once the clock reaches the limit while writing, the session completes. It saves the content with the current text over the current id, at the elapsed time. The stored content is left as it was, and nothing happens otherwise |
| App.CountSecond | App.tsx:53-75 | a second is counted only while writing |
| App.ClearHistory | App.tsx:123-128 | on confirmation with a successful removal both the in-memory and the stored history are empty, other storage keys stay with their values, and nothing else changes; when the dialog is declined or the removal throws, nothing changes |
| App.Tick | App.tsx:53-89 | while writing, a tick adds one second and completes the session exactly when that second reaches the limit; in any other phase it changes nothing |
| App.Restart | App.tsx:218 | restarting only returns to the start screen |
| App.ResultData | App.tsx:212-217 | the results screen is given the live topic, stored content and clock, not the saved record |
| App.Enabled | App.tsx:130-224 | no control is on screen in the reviewing phase, and the clear button is on screen only while the history is non-empty |
| App.Handle | App.tsx:130-224 | an event whose control is not on screen changes nothing, and only advancing and clearing touch the history and the storage |
| App.Step | App.tsx:116-117 | the section index stays inside the catalog after any event |
| App.TimeoutCheckStoringContent | App.tsx:79-89 | the corrected timeout: the content shown afterwards is the content saved |
| AppTheorems.HandleKeepsBeforeCheck | App.tsx:92-128 | every handler keeps the invariant except that the clock may have just reached the limit while writing |
| AppTheorems.NextKeepsBeforeCheck | App.tsx:105-121 | advancing keeps the stored ids those of the sections before the current one, and keeps them distinct |
| AppTheorems.CheckRestoresInv | App.tsx:79-89 | the auto-submit effect that follows restores the full invariant, so a writing state always has time left |
| AppTheorems.StepKeepsInv | App.tsx:92-128 | every event keeps the invariant. The index stays in the catalog and the clock stays within the limit. The stored ids are exactly those of the sections before the current one while writing |
| AppTheorems.RunKeepsInv | App.tsx:92-128 | any sequence of events keeps the invariant |
| AppTheorems.NeverOvertime | components/ResultView.tsx:36 | the results screen never reports overtime, because the clock stops at the limit |
| AppTheorems.StepHistory | App.tsx:79-121 | a record is added exactly when a writing session completes, and one at a time; a completed session never adds another; otherwise the history only changes by a confirmed clear |
| AppTheorems.StepClock | App.tsx:53-75 | the clock never goes back while writing and is frozen once complete |
| AppTheorems.StepKeepsHistorySynced | App.tsx:24-128 | while storage accepts every call, the in-memory history stays equal to what storage reads back |
| AppTheorems.WriteFailureStillCompletes | App.tsx:47-49 | a rejected storage write still completes the session and records it in memory |
| AppTheorems.FailedClearKeepsHistory | App.tsx:123-127 | a confirmed clear whose removal throws leaves the state, history and storage as they were |
| AppTheorems.Ticks | App.tsx:53-75 | repeated ticks keep the section index |
| AppTheorems.TickBeforeLimit | App.tsx:57-70 | before the limit a tick only advances the clock by one |
| AppTheorems.TickAtLimit | App.tsx:79-87 | the tick that reaches the limit completes the session. It saves the content with the current text over the current id, at exactly 300 s |
| AppTheorems.SecondElapsedIsTick | App.tsx:53-89 | while writing, the elapsed-second event is the tick |
| AppTheorems.ClockRunsOut | App.tsx:53-87 | letting the clock run out from any writing state completes the session once. It saves the sections visited so far plus the current one, at exactly 300 s |
| AppTheorems.LateTicksChangeNothing | App.tsx:53-89 | ticks outside writing change nothing |
| AppTheorems.TimeoutShowsStaleContent | App.tsx:79-87 | after a timeout the results screen lacks the in-progress text that the saved record holds, so its word total falls short by exactly that text's word count |
| AppTheorems.FixedTimeoutShowsSavedContent | App.tsx:213-216 | with the content stored on timeout, the results screen shows the saved content, at 300 s |
| AppTheorems.AdvancePathShowsSavedContent | App.tsx:109-119 | after the last advance the results screen shows exactly the saved content and time, holding every catalog id |
| AppTheorems.EntriesCons | App.tsx:109-112 | the texts written from one section on are the first text under that section's id, followed by the rest |
| AppTheorems.KeysOfAllEntries | App.tsx:105-121 | texts for all five sections carry exactly the catalog ids |
| AppTheorems.TypingReplacesText | App.tsx:200 | while writing, typing only replaces the current text |
| AppTheorems.RoundMovesOn | App.tsx:105-117 | typing and advancing before the last section appends the text under the current id and moves to the next section |
| AppTheorems.RoundCompletes | App.tsx:105-121 | typing and advancing on the last section appends the text and completes the session, saving exactly that content |
| AppTheorems.MovedOnAfterRound | App.tsx:109-117 | one section written before a run of further sections ends up in front of their content |
| AppTheorems.SavedAfterRound | App.tsx:109-121 | one section written before a run that completes ends up in front of the saved content |
| AppTheorems.WritingSomeSections | App.tsx:105-117 | writing texts into sections before the last appends them in catalog order and moves past them, with clock and history unchanged |
| AppTheorems.WritingLastSection | App.tsx:116-121 | writing the last section completes the session |
| AppTheorems.WritingRemainingSections | App.tsx:105-121 | writing every remaining section completes the session on the last advance, saving one record that holds the stored content in catalog order |
| AppTheorems.WholeEssay | App.tsx:92-121 | start plus five advances without a tick completes on the fifth. It saves one record with the five catalog ids in order, at time 0, and the results screen shows that content |
| AppTheorems.PartialEssay | App.tsx:92-117 | fewer than five advances leave the session writing, on the next section, with the texts stored so far |
| AppTheorems.ZeroTimeShowsNoFiniteSpeed | components/ResultView.tsx:42 | a results screen given zero seconds shows no finite speed |
| AppTheorems.QuickEssayHasNoFiniteSpeed | components/ResultView.tsx:42 | a session finished before the first tick shows a non-finite speed, while its record saves 60 times the word total |

## Left out

- Rendering, styling and the history modal (`components/HistoryList.tsx`) are not modelled, except that its clear button is on screen only while the history is non-empty. `components/Button.tsx` is not part of this model.
- `setInterval`/`clearInterval` scheduling and React's effect ordering are not modelled. Each handler or effect is one sequential step, so the race with a keystroke typed in the last render cannot be expressed.
- `Math.random`, `Date.now()` and `toISOString()` are not modelled. The topic pick is a position given to the start event, and the record id and date are inputs.
- `localStorage` and `JSON.stringify`/`JSON.parse` are foreign calls. The store is a map whose history entry is absent, empty text, unparseable, or a list of records. Whether storage rejects a call is an input flag. A rejected write is swallowed; a rejected removal throws out of the clear handler before the in-memory history is emptied, and the thrown error itself is not modelled.
- A payload that parses to something other than a list is not modelled. Such a payload reads as itself in the source.
- The clipboard, `window.open`, `alert` and `console` calls are not modelled. The `window.confirm` answer is an input to the clear event.
- The invite URL built with the browser's URL API in the lobby is not modelled.
- The lobby is not wired into `App.tsx`. It is modelled on its own, with the wall clock as an input.
- Floating-point arithmetic is not modelled. Rounding is exact on rationals, so results may differ from JavaScript doubles at exact .5 ties.
- The progress-bar percentages (`App.tsx:190`, `components/Timer.tsx:37`) are not modelled.
- The `padStart` text of the clocks is not modelled. Only the minute and second numbers are.
- Strings are sequences of Unicode scalar values, not UTF-16 code units. Whitespace is the exact set of code points JavaScript's `\s` and `trim` use.
- JavaScript's object key order puts integer-like keys first. Section ids are never integer-like, so the model keeps plain insertion order.
- `types.ts` is mirrored as datatypes. Its REVIEWING phase is never entered.
- Text.Split: its own contract promises only at least one piece. The shape of the pieces is stated by the lemmas about it: Text.SplitPiecesHaveNoDelimiter, Text.SplitKeepsText, Text.SplitSnoc and Text.SplitCountsRuns.
- ResultView.Summarize: states that the word total is zero exactly for blank sections. It does not state the total itself. `AppTheorems.TimeoutShowsStaleContent` relates it to the saved total.

## Findings

| source | as written | input that shows it | evidently intended | confidence | as-written member | corrected member |
|---|---|---|---|---|---|---|
| components/ResultView.tsx:42 | the results screen divides the word total by `totalTimeSeconds / 60` without the zero guard `finishEssay` uses | start a session and press the advance button five times before the first second elapses: the time is 0, so the speed shows as Infinity, or NaN if nothing was typed | show the same guarded speed as the saved record | not executed | ResultView.WpmAsWritten, with ResultView.WpmAsWrittenAtZeroTime and AppTheorems.QuickEssayHasNoFiniteSpeed | ResultView.GuardedWpm |
| App.tsx:79-87 | on timeout, the text of the section in progress is written into the saved record but not into `essayContent`, which the results screen shows | type "one two three" into the first section and let the clock run out: the record holds it, but the results screen shows "No content written." and 0 words | the results screen shows what was saved, as on the advance path | not executed | App.TimeoutCheck, with AppTheorems.TimeoutShowsStaleContent | App.TimeoutCheckStoringContent, with AppTheorems.FixedTimeoutShowsSavedContent |

=== FILE: app.dfy ===
/**
 The essay session: a topic, five sections written one after another, a
 one-second clock with a hard five-minute limit, and the saved history.
 Each handler and each effect is one pure transition on an immutable state;
 the clock, the random topic pick, the record id and date, the browser's
 acceptance of a storage write and the confirmation dialog are inputs.
 */
module App {
  import opened Common
  import opened Text
  import opened Dict
  import opened Catalog
  import opened Types
  import opened Scoring
  import opened Storage

  /** The component's state hooks, plus the local storage it reads and writes. */
  datatype State = State(
    phase: Phase,
    topic: string,
    customTopic: string,
    index: nat,
    currentText: string,
    content: Dict,
    elapsed: nat,
    history: seq<HistoryItem>,
    storage: LocalStorage)

  /** What the environment supplies: the record id (`Date.now()`) and date
      (`toISOString()`) of a finished essay, and whether the browser's storage
      rejects the call, the write when an essay is saved or the removal when
      the history is cleared. */
  datatype Env = Env(recordId: string, date: string, storageFails: bool)

  /** The invariant every reachable state keeps. */
  predicate Inv(s: State) {
    && s.index < |Sections|
    && s.elapsed <= TimeLimit
    && s.phase != Reviewing
    && UniqueKeys(s.content)
    && (s.phase == Writing ==> s.elapsed < TimeLimit && Keys(s.content) == IdsBefore(s.index))
  }

  function CurrentId(s: State): string
    requires s.index < |Sections|
  {
    Sections[s.index].id
  }

  /** The first render and the mount effect, which loads the saved history. */
  function Mount(storage: LocalStorage): (s: State)
    ensures s.phase == Idle && s.history == Load(storage) && s.storage == storage
    ensures Inv(s)
  {
    State(Idle, "", "", 0, "", [], 0, Load(storage), storage)
  }

  /** `finishEssay(finalContent, finalTime)`: one record with the word total
      and speed is saved and put in front of the in-memory history, and the
      session is complete whether or not the storage write went through. */
  function Finish(s: State, finalContent: Dict, finalTime: nat, env: Env): (r: State)
    ensures r.phase == Completed
    ensures |r.history| == |s.history| + 1 && r.history[1..] == s.history
    ensures var item := r.history[0];
      && item.id == env.recordId && item.date == env.date
      && item.topic == s.topic && item.sections == finalContent && item.totalTimeSeconds == finalTime
      && item.wpm == Wpm(ContentWords(finalContent), finalTime)
    ensures !env.storageFails ==> Load(r.storage) == [r.history[0]] + Load(s.storage)
    ensures env.storageFails ==> r.storage == s.storage
    ensures r.(phase := s.phase, history := s.history, storage := s.storage) == s
  {
    var totalWords := ContentWords(finalContent);
    var wpm := Wpm(totalWords, finalTime);
    var item := HistoryItem(env.recordId, s.topic, finalContent, finalTime, env.date, wpm);
    s.(storage := Save(s.storage, item, env.storageFails), history := [item] + s.history, phase := Completed)
  }

  /** Typing into the optional topic box on the start screen. */
  function TypeTopic(s: State, text: string): (r: State)
    ensures r.customTopic == text && r.(customTopic := s.customTopic) == s
  {
    s.(customTopic := text)
  }

  /** `startSession`: the trimmed custom topic if it is not blank, otherwise
      the topic at the random position `pick`; everything else of the draft
      is reset and writing begins. */
  function StartSession(s: State, pick: nat): (r: State)
    requires pick < |Topics|
    ensures |Trim(s.customTopic)| > 0 ==> r.topic == Trim(s.customTopic)
    ensures |Trim(s.customTopic)| == 0 ==> r.topic in Topics
    ensures r.phase == Writing && r.index == 0 && r.currentText == "" && r.content == [] && r.elapsed == 0
    ensures r.customTopic == s.customTopic && r.history == s.history && r.storage == s.storage
  {
    var topic := if |Trim(s.customTopic)| > 0 then Trim(s.customTopic) else Topics[pick];
    s.(topic := topic, content := [], currentText := "", index := 0, elapsed := 0, phase := Writing)
  }

  /** Typing into the current section. */
  function EditText(s: State, text: string): (r: State)
    ensures r.currentText == text && r.(currentText := s.currentText) == s
  {
    s.(currentText := text)
  }

  /** `handleNextSection`: the current text is stored under the current
      section id and cleared; before the last section the index moves on,
      on the last one the essay is finished with the stored content. */
  function NextSection(s: State, env: Env): (r: State)
    requires s.index < |Sections|
    ensures Get(r.content, CurrentId(s)) == Some(s.currentText)
    ensures forall k :: k != CurrentId(s) ==> Get(r.content, k) == Get(s.content, k)
    ensures r.currentText == ""
    ensures s.index < |Sections| - 1 ==>
      && r.index == s.index + 1
      && r.(index := s.index, content := s.content, currentText := s.currentText) == s
    ensures s.index == |Sections| - 1 ==>
      && r.phase == Completed && r.index == s.index && r.elapsed == s.elapsed
      && |r.history| == |s.history| + 1 && r.history[1..] == s.history
      && r.history[0].sections == r.content && r.history[0].totalTimeSeconds == s.elapsed
      && r.history[0].wpm == Wpm(ContentWords(r.content), s.elapsed)
  {
    var updated := Put(s.content, CurrentId(s), s.currentText);
    var stored := s.(content := updated, currentText := "");
    if s.index < |Sections| - 1 then stored.(index := s.index + 1)
    else Finish(stored, updated, s.elapsed, env)
  }

  /** The auto-submit effect: once the clock has reached the limit while
      writing, the essay is finished with the current text written over the
      current section id. The stored content itself is not updated. */
  function TimeoutCheck(s: State, env: Env): (r: State)
    requires s.index < |Sections|
    ensures s.phase == Writing && s.elapsed >= TimeLimit ==>
      && r.phase == Completed
      && |r.history| == |s.history| + 1 && r.history[1..] == s.history
      && r.history[0].sections == Put(s.content, CurrentId(s), s.currentText)
      && r.history[0].totalTimeSeconds == s.elapsed
      && r.content == s.content && r.elapsed == s.elapsed
    ensures !(s.phase == Writing && s.elapsed >= TimeLimit) ==> r == s
  {
    if s.phase == Writing && s.elapsed >= TimeLimit then
      Finish(s, Put(s.content, CurrentId(s), s.currentText), s.elapsed, env)
    else s
  }

  /** One second of the interval, which runs only while writing. */
  function CountSecond(s: State): (r: State)
    ensures s.phase == Writing ==> r.elapsed == s.elapsed + 1 && r.(elapsed := s.elapsed) == s
    ensures s.phase != Writing ==> r == s
  {
    if s.phase == Writing then s.(elapsed := s.elapsed + 1) else s
  }

  /** A tick: one more second, then the auto-submit check. While writing it
      adds one second and completes the session exactly when that second
      reaches the limit; in any other phase it changes nothing. */
  function Tick(s: State, env: Env): (r: State)
    requires s.index < |Sections|
    ensures r.index == s.index
    ensures s.phase == Writing ==>
      r.elapsed == s.elapsed + 1 && (r.phase == Completed <==> s.elapsed + 1 >= TimeLimit)
    ensures s.phase != Writing ==> r == s
  {
    TimeoutCheck(CountSecond(s), env)
  }

  /** `handleClearHistory`, given the answer to the confirmation dialog. A
      removal that throws leaves the handler before the in-memory history is
      emptied, so nothing changes. */
  function ClearHistory(s: State, confirmed: bool, removalFails: bool): (r: State)
    ensures confirmed && !removalFails ==>
      r.history == [] && Load(r.storage) == [] && r.(history := s.history, storage := s.storage) == s
    ensures confirmed && !removalFails ==>
      forall k :: k != StorageKey ==> (k in r.storage <==> k in s.storage)
    ensures confirmed && !removalFails ==>
      forall k :: k != StorageKey && k in s.storage ==> r.storage[k] == s.storage[k]
    ensures !confirmed || removalFails ==> r == s
  {
    if confirmed then
      match Clear(s.storage, removalFails)
      case None => s
      case Some(cleared) => s.(storage := cleared, history := [])
    else s
  }

  /** "Start New Essay" on the results screen. */
  function Restart(s: State): (r: State)
    ensures r.phase == Idle && r.(phase := s.phase) == s
  {
    s.(phase := Idle)
  }

  /** What the results screen is given: the live topic, stored content and
      clock, not the record saved to the history. */
  function ResultData(s: State): (r: EssayData)
    ensures r.topic == s.topic && r.sections == s.content && r.totalTimeSeconds == s.elapsed
  {
    EssayData(s.topic, s.content, s.elapsed)
  }

  /** The user's and the clock's inputs. */
  datatype Event =
    | TopicTyped(text: string)
    | StartPressed(pick: nat)
    | TextTyped(text: string)
    | NextPressed
    | SecondElapsed
    | RestartPressed
    | ClearPressed(confirmed: bool)

  /** Whether the control behind an event is on screen in the current phase
      (the interval is scheduled only while writing; the history list, with
      its clear button, is not rendered while the history is empty). */
  predicate Enabled(s: State, e: Event)
    ensures Enabled(s, e) ==> s.phase != Reviewing
    ensures Enabled(s, e) && e.ClearPressed? ==> |s.history| > 0
  {
    match e
    case TopicTyped(_) => s.phase == Idle
    case StartPressed(_) => s.phase == Idle
    case ClearPressed(_) => s.phase == Idle && |s.history| > 0
    case TextTyped(_) => s.phase == Writing
    case NextPressed => s.phase == Writing
    case SecondElapsed => s.phase == Writing
    case RestartPressed => s.phase == Completed
  }

  /** `Math.floor(Math.random() * TOPICS.length)` is always a valid position. */
  predicate ValidEvent(e: Event) {
    e.StartPressed? ==> e.pick < |Topics|
  }

  /** The handler an enabled event runs. A disabled event changes nothing,
      and only advancing and clearing touch the history and the storage. */
  function Handle(s: State, e: Event, env: Env): (r: State)
    requires s.index < |Sections| && ValidEvent(e)
    ensures !Enabled(s, e) ==> r == s
    ensures !(Enabled(s, e) && (e.NextPressed? || e.ClearPressed?)) ==>
      r.history == s.history && r.storage == s.storage
  {
    if !Enabled(s, e) then s
    else
      match e
      case TopicTyped(text) => TypeTopic(s, text)
      case StartPressed(pick) => StartSession(s, pick)
      case ClearPressed(confirmed) => ClearHistory(s, confirmed, env.storageFails)
      case TextTyped(text) => EditText(s, text)
      case NextPressed => NextSection(s, env)
      case SecondElapsed => CountSecond(s)
      case RestartPressed => Restart(s)
  }

  /** One event followed by the re-render, whose auto-submit effect runs
      after every state change. */
  function Step(s: State, e: Event, env: Env): (r: State)
    requires s.index < |Sections| && ValidEvent(e)
    ensures r.index < |Sections|
  {
    var h := Handle(s, e, env);
    assert h.index < |Sections| by {
      if Enabled(s, e) && e == NextPressed {
        assert h.index <= s.index + 1;
      }
    }
    TimeoutCheck(h, env)
  }

  /** The fix for the stale result screen on timeout: the auto-submit effect
      also stores the final content, as the advance path does. */
  function TimeoutCheckStoringContent(s: State, env: Env): (r: State)
    requires s.index < |Sections|
    ensures s.phase == Writing && s.elapsed >= TimeLimit ==>
      && r.phase == Completed
      && |r.history| == |s.history| + 1 && r.history[1..] == s.history
      && r.history[0].sections == r.content
      && r.content == Put(s.content, CurrentId(s), s.currentText)
    ensures !(s.phase == Writing && s.elapsed >= TimeLimit) ==> r == s
  {
    if s.phase == Writing && s.elapsed >= TimeLimit then
      var finalContent := Put(s.content, CurrentId(s), s.currentText);
      Finish(s.(content := finalContent), finalContent, s.elapsed, env)
    else s
  }
}

=== FILE: app_theorems.dfy ===
/** Properties of runs of the essay session: the invariant, the history it
    builds, the two ways a session completes and what the results screen
    is then given. */
module AppTheorems {
  import opened Common
  import opened Text
  import opened Dict
  import opened Catalog
  import opened Types
  import opened Scoring
  import opened Storage
  import opened ResultView
  import opened App

  // ---------------------------------------------------------------------------
  // The invariant
  // ---------------------------------------------------------------------------

  /** The invariant as it holds between a handler and the auto-submit
      effect: the clock may just have reached the limit. */
  predicate BeforeCheck(s: State) {
    && s.index < |Sections|
    && s.elapsed <= TimeLimit
    && s.phase != Reviewing
    && UniqueKeys(s.content)
    && (s.phase == Writing ==> Keys(s.content) == IdsBefore(s.index))
  }

  lemma HandleKeepsBeforeCheck(s: State, e: Event, env: Env)
    requires Inv(s) && ValidEvent(e)
    ensures BeforeCheck(Handle(s, e, env))
  {
    var h := Handle(s, e, env);
    if Enabled(s, e) {
      match e
      case TopicTyped(text) => assert h == TypeTopic(s, text);
      case StartPressed(pick) => assert h == StartSession(s, pick);
      case ClearPressed(confirmed) => assert h == ClearHistory(s, confirmed, env.storageFails);
      case TextTyped(text) => assert h == EditText(s, text);
      case NextPressed =>
        assert h == NextSection(s, env);
        NextKeepsBeforeCheck(s, env);
      case SecondElapsed => assert h == CountSecond(s);
      case RestartPressed => assert h == Restart(s);
    }
  }

  /** Advancing stores the current section's id, which is the next one the
      keys of a writing state are missing. */
  lemma NextKeepsBeforeCheck(s: State, env: Env)
    requires Inv(s) && s.phase == Writing
    ensures BeforeCheck(NextSection(s, env))
  {
    PutKeepsKeysUnique(s.content, CurrentId(s), s.currentText);
  }

  lemma CheckRestoresInv(h: State, env: Env)
    requires BeforeCheck(h)
    ensures Inv(TimeoutCheck(h, env))
  {
  }

  /** Every event keeps the invariant; in particular the section index always
      stays inside the catalog. */
  lemma StepKeepsInv(s: State, e: Event, env: Env)
    requires Inv(s) && ValidEvent(e)
    ensures Inv(Step(s, e, env))
  {
    HandleKeepsBeforeCheck(s, e, env);
    CheckRestoresInv(Handle(s, e, env), env);
  }

  /** The results screen never shows overtime: the clock stops at the limit. */
  lemma NeverOvertime(s: State)
    requires Inv(s)
    ensures !Summarize(ResultData(s)).isOvertime
  {
  }

  // ---------------------------------------------------------------------------
  // History and clock across one event
  // ---------------------------------------------------------------------------

  /** A record is added exactly when a writing session completes, and a
      completed session never adds a second one. */
  lemma StepHistory(s: State, e: Event, env: Env)
    requires Inv(s) && ValidEvent(e)
    ensures var r := Step(s, e, env);
      && (s.phase == Writing && r.phase == Completed ==>
            |r.history| == |s.history| + 1 && r.history[1..] == s.history)
      && (!(s.phase == Writing && r.phase == Completed) ==>
            r.history == s.history || (e == ClearPressed(true) && r.history == []))
      && (s.phase == Completed ==> r.history == s.history && r.phase != Writing)
  {
  }

  /** The clock only moves forward while writing and is frozen once complete. */
  lemma StepClock(s: State, e: Event, env: Env)
    requires Inv(s) && ValidEvent(e)
    ensures var r := Step(s, e, env);
      && (s.phase == Writing ==> r.elapsed >= s.elapsed && r.phase != Idle)
      && (s.phase == Completed ==> r.elapsed == s.elapsed)
  {
  }

  /** Where the in-memory history matched storage and storage accepts the
      call, they still match after any event. */
  lemma StepKeepsHistorySynced(s: State, e: Event, env: Env)
    requires Inv(s) && ValidEvent(e) && !env.storageFails
    requires s.history == Load(s.storage)
    ensures var r := Step(s, e, env); r.history == Load(r.storage)
  {
  }

  /** A rejected write still completes the session and records it in memory,
      leaving storage untouched. */
  lemma WriteFailureStillCompletes(s: State, env: Env)
    requires Inv(s) && s.phase == Writing && s.index == |Sections| - 1 && env.storageFails
    ensures var r := Step(s, NextPressed, env);
      && r.phase == Completed && |r.history| == |s.history| + 1 && r.storage == s.storage
  {
  }

  /** A confirmed clear whose removal throws leaves the history on screen and
      in storage. */
  lemma FailedClearKeepsHistory(s: State, env: Env)
    requires Inv(s) && s.phase == Idle && |s.history| > 0 && env.storageFails
    ensures Step(s, ClearPressed(true), env) == s
  {
  }

  // ---------------------------------------------------------------------------
  // Running out the clock
  // ---------------------------------------------------------------------------

  /** `n` ticks in a row. */
  function Ticks(s: State, n: nat, env: Env): (r: State)
    requires s.index < |Sections|
    ensures r.index == s.index
    decreases n
  {
    if n == 0 then s else Ticks(Tick(s, env), n - 1, env)
  }

  /** Before the limit a tick only advances the clock. */
  lemma TickBeforeLimit(s: State, env: Env)
    requires Inv(s) && s.phase == Writing && s.elapsed + 1 < TimeLimit
    ensures Tick(s, env) == s.(elapsed := s.elapsed + 1)
  {
  }

  /** The tick that reaches the limit finishes the essay with the current
      text written over the current section and exactly the limit as time. */
  lemma TickAtLimit(s: State, env: Env)
    requires Inv(s) && s.phase == Writing && s.elapsed + 1 == TimeLimit
    ensures var r := Tick(s, env);
      && r.phase == Completed
      && |r.history| == |s.history| + 1 && r.history[1..] == s.history
      && r.history[0].totalTimeSeconds == TimeLimit
      && r.history[0].sections == Put(s.content, CurrentId(s), s.currentText)
      && Keys(r.history[0].sections) == IdsBefore(s.index + 1)
      && r.content == s.content
  {
    var c := CountSecond(s);
    assert c == s.(elapsed := TimeLimit);
    assert CurrentId(c) == CurrentId(s);
    assert Tick(s, env) == TimeoutCheck(c, env);
  }

  /** The elapsed-second event is the tick itself. */
  lemma SecondElapsedIsTick(s: State, env: Env)
    requires Inv(s) && s.phase == Writing
    ensures Step(s, SecondElapsed, env) == Tick(s, env)
  {
    assert Handle(s, SecondElapsed, env) == CountSecond(s);
  }

  /** Letting the clock run out from any writing state completes it once,
      saving the sections visited so far plus the current one, with the
      time equal to the limit. */
  lemma {:induction false} ClockRunsOut(s: State, env: Env)
    requires Inv(s) && s.phase == Writing
    ensures var r := Ticks(s, TimeLimit - s.elapsed, env);
      && r.phase == Completed
      && |r.history| == |s.history| + 1 && r.history[1..] == s.history
      && r.history[0].totalTimeSeconds == TimeLimit
      && r.history[0].sections == Put(s.content, CurrentId(s), s.currentText)
      && Keys(r.history[0].sections) == IdsBefore(s.index + 1)
      && r.content == s.content && r.topic == s.topic
    decreases TimeLimit - s.elapsed
  {
    if s.elapsed + 1 == TimeLimit {
      TickAtLimit(s, env);
      assert Ticks(s, 1, env) == Tick(s, env);
    } else {
      TickBeforeLimit(s, env);
      var s' := Tick(s, env);
      ClockRunsOut(s', env);
      assert Ticks(s, TimeLimit - s.elapsed, env) == Ticks(s', TimeLimit - s'.elapsed, env);
    }
  }

  /** Ticks after completion change nothing. */
  lemma {:induction false} LateTicksChangeNothing(s: State, n: nat, env: Env)
    requires s.index < |Sections| && s.phase != Writing
    ensures Ticks(s, n, env) == s
    decreases n
  {
    if n > 0 {
      LateTicksChangeNothing(Tick(s, env), n - 1, env);
    }
  }

  /** On timeout the results screen is given the stored content, which lacks
      the in-progress text the saved record contains. */
  lemma TimeoutShowsStaleContent(s: State, env: Env)
    requires Inv(s) && s.phase == Writing && s.elapsed + 1 == TimeLimit
    ensures var r := Step(s, SecondElapsed, env);
      && ResultData(r).sections == s.content
      && Get(ResultData(r).sections, CurrentId(s)) == None
      && Get(r.history[0].sections, CurrentId(s)) == Some(s.currentText)
      && Summarize(ResultData(r)).totalWords + WordCount(s.currentText) == ContentWords(r.history[0].sections)
  {
    TickAtLimit(s, env);
    SecondElapsedIsTick(s, env);
    IdsBeforeExcludes(s.index);
    PutNewKeyWords(s.content, CurrentId(s), s.currentText);
  }

  /** With the content stored on timeout, the results screen shows what was saved. */
  lemma FixedTimeoutShowsSavedContent(s: State, env: Env)
    requires Inv(s) && s.phase == Writing && s.elapsed + 1 == TimeLimit
    ensures var r := TimeoutCheckStoringContent(CountSecond(s), env);
      && r.phase == Completed
      && ResultData(r).sections == r.history[0].sections
      && ResultData(r).totalTimeSeconds == r.history[0].totalTimeSeconds == TimeLimit
      && Get(ResultData(r).sections, CurrentId(s)) == Some(s.currentText)
  {
  }

  /** On the advance path the results screen shows exactly the saved record. */
  lemma AdvancePathShowsSavedContent(s: State, env: Env)
    requires Inv(s) && s.phase == Writing && s.index == |Sections| - 1
    ensures var r := Step(s, NextPressed, env);
      && r.phase == Completed
      && ResultData(r).sections == r.history[0].sections
      && ResultData(r).totalTimeSeconds == r.history[0].totalTimeSeconds
      && Keys(r.history[0].sections) == AllIds()
  {
    var h := NextSection(s, env);
    assert Handle(s, NextPressed, env) == h;
    assert h.phase == Completed;
    assert Step(s, NextPressed, env) == h;
    assert h.history[0].sections == Put(s.content, CurrentId(s), s.currentText);
  }

  // ---------------------------------------------------------------------------
  // Runs of events, and writing the sections one after another
  // ---------------------------------------------------------------------------

  /** A sequence of events, each followed by the auto-submit check. */
  function Run(s: State, events: seq<Event>, env: Env): (r: State)
    requires s.index < |Sections|
    requires forall i :: 0 <= i < |events| ==> ValidEvent(events[i])
    ensures r.index < |Sections|
    decreases |events|
  {
    if events == [] then s else Run(Step(s, events[0], env), events[1..], env)
  }

  /** Every run from an invariant state ends in an invariant state. */
  lemma {:induction false} RunKeepsInv(s: State, events: seq<Event>, env: Env)
    requires Inv(s)
    requires forall i :: 0 <= i < |events| ==> ValidEvent(events[i])
    ensures Inv(Run(s, events, env))
    decreases |events|
  {
    if events != [] {
      StepKeepsInv(s, events[0], env);
      RunKeepsInv(Step(s, events[0], env), events[1..], env);
    }
  }

  /** Typing a section's text and pressing the advance button. */
  function Round(s: State, text: string, env: Env): State
    requires s.index < |Sections|
  {
    Step(Step(s, TextTyped(text), env), NextPressed, env)
  }

  /** One round per text, in order. */
  function WriteSections(s: State, texts: seq<string>, env: Env): (r: State)
    requires s.index < |Sections|
    decreases |texts|
  {
    if texts == [] then s else
      var s' := Round(s, texts[0], env);
      assert s'.index < |Sections|;
      WriteSections(s', texts[1..], env)
  }

  /** The entries written by `texts` into the sections from position `from` on. */
  function Entries(from: nat, texts: seq<string>): (d: Dict)
    requires from + |texts| <= |Sections|
  {
    seq(|texts|, j requires 0 <= j < |texts| => Entry(Sections[from + j].id, texts[j]))
  }

  lemma EntriesCons(from: nat, texts: seq<string>)
    requires from + |texts| <= |Sections| && texts != []
    ensures Entries(from, texts) == [Entry(Sections[from].id, texts[0])] + Entries(from + 1, texts[1..])
  {
  }

  /** Entries for every section carry exactly the catalog ids. */
  lemma KeysOfAllEntries(texts: seq<string>)
    requires |texts| == |Sections|
    ensures Keys(Entries(0, texts)) == AllIds()
  {
    var d := Entries(0, texts);
    forall k | true
      ensures k in Keys(d) <==> k in AllIds()
    {
      KeysMembership(d, k);
      IdsBeforeMembership(|Sections|, k);
      if k in AllIds() {
        var i :| 0 <= i < |Sections| && Sections[i].id == k;
        assert d[i].key == k;
      }
    }
  }

  /** Typing only replaces the current text. */
  lemma TypingReplacesText(s: State, text: string, env: Env)
    requires Inv(s) && s.phase == Writing
    ensures Step(s, TextTyped(text), env) == s.(currentText := text)
  {
  }

  /** A round before the last section appends the typed text under the
      current section id and moves on to the next section. */
  lemma RoundMovesOn(s: State, text: string, env: Env)
    requires Inv(s) && s.phase == Writing && s.index < |Sections| - 1
    ensures var r := Round(s, text, env);
      && Inv(r) && r.phase == Writing && r.index == s.index + 1
      && r.content == s.content + [Entry(CurrentId(s), text)]
      && r.currentText == ""
      && r.elapsed == s.elapsed && r.topic == s.topic && r.history == s.history
  {
    var typed := s.(currentText := text);
    TypingReplacesText(s, text, env);
    IdsBeforeExcludes(s.index);
    StepKeepsInv(typed, NextPressed, env);
  }

  /** The round on the last section appends the typed text and completes
      the session with exactly that content saved. */
  lemma RoundCompletes(s: State, text: string, env: Env)
    requires Inv(s) && s.phase == Writing && s.index == |Sections| - 1
    ensures var r := Round(s, text, env);
      SavedOnce(s, r, s.content + [Entry(CurrentId(s), text)])
  {
    TypingReplacesText(s, text, env);
    IdsBeforeExcludes(s.index);
  }

  /** The record a completed session saved, compared with the state it was
      completed from: one record in front of the old history, holding the
      given content and the time so far, with the content also stored. */
  predicate SavedOnce(s: State, r: State, content: Dict) {
    && r.phase == Completed
    && |r.history| == |s.history| + 1 && r.history[1..] == s.history
    && r.history[0].sections == content && r.content == content
    && r.history[0].totalTimeSeconds == s.elapsed && r.elapsed == s.elapsed
    && r.history[0].wpm == Wpm(ContentWords(content), s.elapsed)
  }

  /** A session still in progress after `texts` were written from `s` on:
      the texts appended in catalog order, the index moved past them and
      nothing else changed. */
  predicate MovedOn(s: State, r: State, texts: seq<string>)
    requires s.index + |texts| <= |Sections|
  {
    && Inv(r) && r.phase == Writing && r.index == s.index + |texts|
    && r.content == s.content + Entries(s.index, texts)
    && r.elapsed == s.elapsed && r.topic == s.topic && r.history == s.history
  }

  lemma MovedOnAfterRound(s: State, s': State, r: State, texts: seq<string>)
    requires texts != [] && s.index + |texts| <= |Sections|
    requires s'.index == s.index + 1
    requires s'.history == s.history && s'.elapsed == s.elapsed && s'.topic == s.topic
    requires s'.content == s.content + [Entry(Sections[s.index].id, texts[0])]
    requires MovedOn(s', r, texts[1..])
    ensures MovedOn(s, r, texts)
  {
    EntriesCons(s.index, texts);
    var c := s.content + Entries(s.index, texts);
    assert c == s'.content + Entries(s.index + 1, texts[1..]);
  }

  /** Writing `texts` into sections before the last appends them in catalog
      order and moves on to the section after them. */
  lemma {:induction false} WritingSomeSections(s: State, texts: seq<string>, env: Env)
    requires Inv(s) && s.phase == Writing && s.index + |texts| < |Sections|
    ensures MovedOn(s, WriteSections(s, texts, env), texts)
    decreases |texts|
  {
    if texts == [] {
      assert s.content + Entries(s.index, texts) == s.content;
    } else {
      var s' := Round(s, texts[0], env);
      RoundMovesOn(s, texts[0], env);
      WritingSomeSections(s', texts[1..], env);
      var r := WriteSections(s', texts[1..], env);
      assert WriteSections(s, texts, env) == r;
      MovedOnAfterRound(s, s', r, texts);
    }
  }

  /** A section written before a session that is later saved ends up in
      front of the saved content. */
  lemma SavedAfterRound(s: State, s': State, r: State, texts: seq<string>)
    requires texts != [] && s.index + |texts| <= |Sections|
    requires s'.history == s.history && s'.elapsed == s.elapsed
    requires s'.content == s.content + [Entry(Sections[s.index].id, texts[0])]
    requires SavedOnce(s', r, s'.content + Entries(s.index + 1, texts[1..]))
    ensures SavedOnce(s, r, s.content + Entries(s.index, texts))
  {
    EntriesCons(s.index, texts);
    var c := s.content + Entries(s.index, texts);
    assert c == s'.content + Entries(s.index + 1, texts[1..]);
  }

  /** Writing the last section completes the session. */
  lemma WritingLastSection(s: State, texts: seq<string>, env: Env)
    requires Inv(s) && s.phase == Writing && |texts| == 1 && s.index == |Sections| - 1
    ensures var r := WriteSections(s, texts, env);
      SavedOnce(s, r, s.content + Entries(s.index, texts))
  {
    var r := Round(s, texts[0], env);
    assert WriteSections(s, texts, env) == r by {
      assert texts[1..] == [];
      assert r.index < |Sections| by {
        RoundCompletes(s, texts[0], env);
      }
      assert WriteSections(r, [], env) == r;
    }
    assert Entries(s.index, texts) == [Entry(CurrentId(s), texts[0])];
    RoundCompletes(s, texts[0], env);
  }

  /** Writing `texts` into the remaining sections completes the essay on the
      last advance, saving one record that holds exactly the stored content:
      every catalog id in order, and the time so far. */
  lemma {:induction false} WritingRemainingSections(s: State, texts: seq<string>, env: Env)
    requires Inv(s) && s.phase == Writing && texts != [] && s.index + |texts| == |Sections|
    ensures var r := WriteSections(s, texts, env);
      SavedOnce(s, r, s.content + Entries(s.index, texts))
    decreases |texts|
  {
    if |texts| == 1 {
      WritingLastSection(s, texts, env);
    } else {
      var s' := Round(s, texts[0], env);
      RoundMovesOn(s, texts[0], env);
      WritingRemainingSections(s', texts[1..], env);
      var r := WriteSections(s', texts[1..], env);
      assert WriteSections(s, texts, env) == r;
      SavedAfterRound(s, s', r, texts);
    }
  }

  /** Starting an essay and advancing through all five sections without the
      clock moving completes it on the fifth advance, saving one record with
      every catalog id in order and a time of zero. */
  lemma WholeEssay(s: State, pick: nat, texts: seq<string>, env: Env)
    requires Inv(s) && s.phase == Idle && pick < |Topics| && |texts| == |Sections|
    ensures var r := WriteSections(Step(s, StartPressed(pick), env), texts, env);
      && r.phase == Completed
      && |r.history| == |s.history| + 1 && r.history[1..] == s.history
      && r.history[0].sections == Entries(0, texts)
      && Keys(r.history[0].sections) == AllIds()
      && r.history[0].totalTimeSeconds == 0
      && ResultData(r).sections == r.history[0].sections
      && ResultData(r).totalTimeSeconds == 0
      && r.history[0].wpm == Wpm(ContentWords(r.history[0].sections), 0)
  {
    var started := Step(s, StartPressed(pick), env);
    StepKeepsInv(s, StartPressed(pick), env);
    WritingRemainingSections(started, texts, env);
    assert Entries(0, texts) == [] + Entries(0, texts);
    KeysOfAllEntries(texts);
  }

  /** Fewer than five advances leave the essay in progress on the next section. */
  lemma PartialEssay(s: State, pick: nat, texts: seq<string>, env: Env)
    requires Inv(s) && s.phase == Idle && pick < |Topics| && 0 < |texts| < |Sections|
    ensures var r := WriteSections(Step(s, StartPressed(pick), env), texts, env);
      && r.phase == Writing && r.index == |texts|
      && r.content == Entries(0, texts)
      && r.history == s.history
  {
    var started := Step(s, StartPressed(pick), env);
    StepKeepsInv(s, StartPressed(pick), env);
    WritingSomeSections(started, texts, env);
    assert Entries(0, texts) == [] + Entries(0, texts);
  }

  /** A results screen given zero seconds shows no finite speed. */
  lemma ZeroTimeShowsNoFiniteSpeed(data: EssayData)
    requires data.totalTimeSeconds == 0
    ensures !WpmAsWritten(Summarize(data).totalWords, data.totalTimeSeconds).Finite?
  {
  }

  /** An essay advanced through before the first tick shows no finite speed
      on the results screen, while the saved record's speed is a number. */
  lemma QuickEssayHasNoFiniteSpeed(s: State, pick: nat, texts: seq<string>, env: Env)
    requires Inv(s) && s.phase == Idle && pick < |Topics| && |texts| == |Sections|
    ensures var r := WriteSections(Step(s, StartPressed(pick), env), texts, env);
      && !WpmAsWritten(Summarize(ResultData(r)).totalWords, ResultData(r).totalTimeSeconds).Finite?
      && |r.history| == |s.history| + 1
      && r.history[0].wpm == 60 * ContentWords(r.history[0].sections)
  {
    WholeEssay(s, pick, texts, env);
    var r := WriteSections(Step(s, StartPressed(pick), env), texts, env);
    ZeroTimeShowsNoFiniteSpeed(ResultData(r));
    WpmAtZeroTime(ContentWords(r.history[0].sections));
  }
}

=== FILE: catalog.dfy ===
/** The fixed configuration of an essay session: the time budget, the ordered
    section catalog and the list of random topics. */
module Catalog {
  datatype SectionConfig = SectionConfig(id: string, title: string, description: string, suggestedWordCount: nat)

  /** Five minutes. */
  const TimeLimit: nat := 300

  const Sections: seq<SectionConfig> := [
    SectionConfig("intro", "Introduction", "Hook the reader and state your thesis clearly.", 50),
    SectionConfig("point1", "Key Point 1", "First supporting argument with evidence.", 60),
    SectionConfig("point2", "Key Point 2", "Second supporting argument or counter-point.", 60),
    SectionConfig("point3", "Key Point 3", "Third supporting argument or practical application.", 60),
    SectionConfig("conclusion", "Conclusion", "Summarize main points and provide a final thought.", 50)
  ]

  const Topics: seq<string> := [
    "Does social media do more harm than good?",
    "Should remote work be the standard for all office jobs?",
    "Is artificial intelligence a threat to human creativity?",
    "Should higher education be free for everyone?",
    "The importance of failure in personal growth.",
    "Should space exploration be privatized?",
    "Is a universal basic income feasible?",
    "The impact of fast fashion on the environment.",
    "Should voting be mandatory?",
    "The future of public transportation in mega-cities."
  ]

  /** The ids of the first `n` catalog sections. */
  function IdsBefore(n: nat): set<string>
    requires n <= |Sections|
  {
    if n == 0 then {} else IdsBefore(n - 1) + {Sections[n - 1].id}
  }

  function AllIds(): set<string> {
    IdsBefore(|Sections|)
  }

  lemma CatalogShape()
    ensures TimeLimit == 300
    ensures |Sections| == 5
    ensures Sections[0].id == "intro" && Sections[1].id == "point1" && Sections[2].id == "point2"
    ensures Sections[3].id == "point3" && Sections[4].id == "conclusion"
    ensures Sections[0].suggestedWordCount == 50 && Sections[1].suggestedWordCount == 60
    ensures Sections[2].suggestedWordCount == 60 && Sections[3].suggestedWordCount == 60
    ensures Sections[4].suggestedWordCount == 50
    ensures |Topics| == 10
  {
  }

  /** Section ids are pairwise distinct, so they can key the essay content. */
  lemma IdsDistinct()
    ensures forall i, j :: 0 <= i < j < |Sections| ==> Sections[i].id != Sections[j].id
  {
  }

  lemma SuggestedCountsPositive()
    ensures forall i :: 0 <= i < |Sections| ==> Sections[i].suggestedWordCount > 0
  {
  }

  lemma {:induction false} IdsBeforeMembership(n: nat, id: string)
    requires n <= |Sections|
    ensures id in IdsBefore(n) <==> exists i :: 0 <= i < n && Sections[i].id == id
  {
    if n > 0 {
      IdsBeforeMembership(n - 1, id);
    }
  }

  /** The section at position `n` is not among the ones before it. */
  lemma IdsBeforeExcludes(n: nat)
    requires n < |Sections|
    ensures Sections[n].id !in IdsBefore(n)
  {
    IdsDistinct();
    IdsBeforeMembership(n, Sections[n].id);
  }

  lemma AllIdsSpelledOut()
    ensures AllIds() == {"intro", "point1", "point2", "point3", "conclusion"}
  {
    assert IdsBefore(1) == {"intro"};
    assert IdsBefore(2) == {"intro", "point1"};
    assert IdsBefore(3) == {"intro", "point1", "point2"};
    assert IdsBefore(4) == {"intro", "point1", "point2", "point3"};
  }
}

=== FILE: common.dfy ===
/** Small shared datatypes used across the model. */
module Common {

  /** A value that may be missing, like a JavaScript lookup that yields `undefined`. */
  datatype Option<+T> = None | Some(value: T)

  /** `Math.max(a, b)` on integers. */
  function Max(a: int, b: int): (r: int)
    ensures r >= a && r >= b
    ensures r == a || r == b
  {
    if a >= b then a else b
  }

  /** Concatenation regroups freely; stated once so that proofs can name the
      regrouping they need instead of rediscovering it element by element. */
  lemma AppendAssoc<T>(a: seq<T>, b: seq<T>, c: seq<T>)
    ensures a + (b + c) == (a + b) + c
  {
  }
}

=== FILE: dict.dfy ===
/**
 A JavaScript object used as a string-to-string dictionary (`{ [key: string]: string }`).
 Its own keys keep insertion order, so it is modelled as a sequence of entries;
 `Object.values` is then a sequence, and `{...d, [k]: v}` replaces an existing
 entry in place or appends a new one at the end.
 */
module Dict {
  import opened Common

  datatype Entry = Entry(key: string, value: string)

  type Dict = seq<Entry>

  function Keys(d: Dict): set<string> {
    if |d| == 0 then {} else {d[0].key} + Keys(d[1..])
  }

  /** `Object.values(d)`. */
  function Values(d: Dict): (r: seq<string>)
    ensures |r| == |d|
    ensures forall i :: 0 <= i < |d| ==> r[i] == d[i].value
  {
    if |d| == 0 then [] else [d[0].value] + Values(d[1..])
  }

  predicate UniqueKeys(d: Dict) {
    forall i, j :: 0 <= i < j < |d| ==> d[i].key != d[j].key
  }

  /** `d[k]`, with `None` standing for `undefined`. */
  function Get(d: Dict, k: string): (r: Option<string>)
    ensures r.Some? <==> k in Keys(d)
    ensures r.Some? ==> exists i :: 0 <= i < |d| && d[i] == Entry(k, r.value)
  {
    if |d| == 0 then None
    else if d[0].key == k then Some(d[0].value)
    else Get(d[1..], k)
  }

  /** `{...d, [k]: v}`. */
  function Put(d: Dict, k: string, v: string): (r: Dict)
    ensures Keys(r) == Keys(d) + {k}
    ensures Get(r, k) == Some(v)
    ensures forall k' :: k' != k ==> Get(r, k') == Get(d, k')
    ensures k !in Keys(d) ==> r == d + [Entry(k, v)]
    ensures k in Keys(d) ==> |r| == |d|
  {
    if |d| == 0 then [Entry(k, v)]
    else if d[0].key == k then
      var r := [Entry(k, v)] + d[1..];
      assert r[1..] == d[1..];
      r
    else
      var tail := Put(d[1..], k, v);
      var r := [d[0]] + tail;
      assert r[1..] == tail;
      r
  }

  /** Writing a key keeps the keys distinct. */
  lemma {:induction false} PutKeepsKeysUnique(d: Dict, k: string, v: string)
    requires UniqueKeys(d)
    ensures UniqueKeys(Put(d, k, v))
  {
    if |d| > 0 && d[0].key != k {
      PutKeepsKeysUnique(d[1..], k, v);
      var r := Put(d, k, v);
      var tail := Put(d[1..], k, v);
      assert r == [d[0]] + tail;
      KeysMembership(d[1..], d[0].key);
      KeysMembership(tail, d[0].key);
    } else if |d| > 0 {
      var r := Put(d, k, v);
      assert forall i :: 1 <= i < |r| ==> r[i] == d[i];
    }
  }

  /** Writing an existing key updates it where it stands: every entry keeps
      its position, and only entries carrying that key change. */
  lemma {:induction false} PutKeepsPlace(d: Dict, k: string, v: string)
    requires k in Keys(d)
    ensures var r := Put(d, k, v);
      && |r| == |d|
      && (forall i :: 0 <= i < |d| && d[i].key != k ==> r[i] == d[i])
      && (forall i :: 0 <= i < |d| && d[i].key == k ==> r[i].key == k)
  {
    var r := Put(d, k, v);
    if d[0].key != k {
      var tail := Put(d[1..], k, v);
      PutKeepsPlace(d[1..], k, v);
      assert r == [d[0]] + tail;
      assert forall i :: 1 <= i < |d| ==> r[i] == tail[i - 1] && d[i] == d[1..][i - 1];
    } else {
      assert r == [Entry(k, v)] + d[1..];
    }
  }

  lemma KeysMembership(d: Dict, k: string)
    ensures k in Keys(d) <==> exists i :: 0 <= i < |d| && d[i].key == k
  {
    if |d| > 0 {
      KeysMembership(d[1..], k);
      if k in Keys(d[1..]) {
        var i :| 0 <= i < |d[1..]| && d[1..][i].key == k;
        assert d[i + 1].key == k;
      }
    }
  }

  lemma ValuesAppend(a: Dict, b: Dict)
    ensures Values(a + b) == Values(a) + Values(b)
  {
  }
}

=== FILE: lobby.dfy ===
/**
 The synchronised start of the challenge lobby: wait until the next
 wall-clock multiple of ten seconds, showing a whole-second countdown.
 The current time in milliseconds is an input.
 */
module Lobby {
  import opened Common

  const SyncPeriodMs: int := 10000

  /** `Math.trunc(a / b)` for `b > 0`: the quotient rounded toward zero. */
  function JsQuot(a: int, b: int): int
    requires b > 0
  {
    if a >= 0 then a / b else -((-a) / b)
  }

  /** JavaScript's `a % b` for `b > 0`: the remainder of truncating division,
      which takes the sign of `a`. */
  function JsRem(a: int, b: int): (r: int)
    requires b > 0
    ensures a == b * JsQuot(a, b) + r
    ensures a >= 0 ==> 0 <= r < b
    ensures a < 0 ==> -b < r <= 0
  {
    if a >= 0 then a % b else -((-a) % b)
  }

  /** `Math.ceil(a / b)` for positive `a` and `b`. */
  function CeilDiv(a: int, b: int): (r: int)
    requires a > 0 && b > 0
    ensures r >= 1
    ensures (r - 1) * b < a <= r * b
  {
    (a + b - 1) / b
  }

  /** `10000 - (now % 10000)`: the milliseconds until the start. */
  function SyncWait(now: int): (w: int)
    ensures w >= 1
    ensures (now + w) % SyncPeriodMs == 0
    ensures now >= 0 ==> w <= SyncPeriodMs
    ensures now < 0 ==> w < 2 * SyncPeriodMs
  {
    SyncPeriodMs - JsRem(now, SyncPeriodMs)
  }

  /** `countDownToSync`, the start instant the polling compares against, and
      whether `onStart` has been called. */
  datatype LobbyState = LobbyState(countdown: Option<int>, target: Option<int>, started: bool)

  const Initial: LobbyState := LobbyState(None, None, false)

  /** `handleSyncStart` at time `now`: the target is the first ten-second
      boundary after `now`, and the countdown is the wait in whole seconds,
      rounded up. It is reachable only through the sync button, which is
      shown only while no countdown is set. */
  function SyncStart(l: LobbyState, now: int): (r: LobbyState)
    requires SyncButtonShown(l)
    ensures r.target.Some? && r.target.value > now && r.target.value % SyncPeriodMs == 0
    ensures now >= 0 ==> r.target.value - SyncPeriodMs <= now
    ensures r.countdown.Some? && r.countdown.value >= 1
    ensures (r.countdown.value - 1) * 1000 < r.target.value - now <= r.countdown.value * 1000
    ensures now >= 0 ==> r.countdown.value <= 10
    ensures !r.started
  {
    var wait := SyncWait(now);
    LobbyState(Some(CeilDiv(wait, 1000)), Some(now + wait), false)
  }

  /** One 100 ms poll of the interval at time `now`: once the target has been
      reached `onStart` fires and polling stops, otherwise the countdown shows
      the whole seconds left, rounded up. */
  function Poll(l: LobbyState, now: int): (r: LobbyState)
    ensures l.countdown.Some? ==> r.countdown.Some?
    ensures r.target == l.target
    ensures l.target.Some? && !l.started ==> (r.started <==> l.target.value - now <= 0)
    ensures l.target.Some? && !l.started && l.target.value - now > 0 ==>
      var left := l.target.value - now;
      r.countdown.Some? && (r.countdown.value - 1) * 1000 < left <= r.countdown.value * 1000
    ensures l.started ==> r == l
  {
    if l.target.None? || l.started then l
    else
      var remaining := l.target.value - now;
      if remaining <= 0 then l.(started := true)
      else l.(countdown := Some(CeilDiv(remaining, 1000)))
  }

  /** The sync button is replaced by the countdown once one is set. */
  predicate SyncButtonShown(l: LobbyState) {
    l.countdown.None?
  }

  predicate CancelEnabled(l: LobbyState) {
    l.countdown.None?
  }

  /** Polls at `times`, in order. */
  function PollAll(l: LobbyState, times: seq<int>): LobbyState
    decreases |times|
  {
    if |times| == 0 then l else PollAll(Poll(l, times[0]), times[1..])
  }

  /** After a sync start, however many polls follow, the sync button stays
      hidden and cancel stays disabled, so the start cannot be triggered
      again or abandoned. */
  lemma {:induction false} SyncStartLocksControls(l: LobbyState, now: int, times: seq<int>)
    requires SyncButtonShown(l)
    ensures var r := PollAll(SyncStart(l, now), times);
      !SyncButtonShown(r) && !CancelEnabled(r)
  {
    PollKeepsCountdown(SyncStart(l, now), times);
  }

  lemma {:induction false} PollKeepsCountdown(l: LobbyState, times: seq<int>)
    requires l.countdown.Some?
    ensures PollAll(l, times).countdown.Some?
    decreases |times|
  {
    if |times| > 0 {
      PollKeepsCountdown(Poll(l, times[0]), times[1..]);
    }
  }

  /** `onStart` fires at most once: after it has fired further polls change nothing. */
  lemma {:induction false} StartFiresOnce(l: LobbyState, times: seq<int>)
    requires l.started
    ensures PollAll(l, times) == l
    decreases |times|
  {
    if |times| > 0 {
      StartFiresOnce(Poll(l, times[0]), times[1..]);
    }
  }

  /** A start requested exactly on a boundary waits a full period. */
  lemma BoundaryWaitsFullPeriod(now: int)
    requires now >= 0 && now % SyncPeriodMs == 0
    ensures SyncWait(now) == SyncPeriodMs
  {
  }

  /** For a clock after the epoch the target is the first multiple of ten
      seconds strictly after `now`. */
  lemma TargetIsNextBoundary(now: int)
    requires now >= 0
    ensures var t := now + SyncWait(now);
      t > now && t % SyncPeriodMs == 0 && t - SyncPeriodMs <= now
  {
  }
}

=== FILE: result_view.dfy ===
/** The statistics and section listing on the results screen. */
module ResultView {
  import opened Common
  import opened Text
  import opened Dict
  import opened Catalog
  import opened Types
  import opened Scoring
  import opened Timer

  /** The three figures at the top of the screen, without the speed. */
  datatype Summary = Summary(clock: Clock, isOvertime: bool, totalWords: nat)

  /** Minutes and seconds of the total time, the overtime flag (against the
      literal 300) and the word total over the shown sections. */
  function Summarize(data: EssayData): (r: Summary)
    ensures r.clock.minutes * 60 + r.clock.seconds == data.totalTimeSeconds
    ensures r.clock.seconds < 60
    ensures r.isOvertime <==> data.totalTimeSeconds > TimeLimit
    ensures r.totalWords == 0 <==> forall i :: 0 <= i < |data.sections| ==> Blank(data.sections[i].value)
  {
    ContentWordsZeroIff(data.sections);
    Summary(ToClock(data.totalTimeSeconds), data.totalTimeSeconds > 300, ContentWords(data.sections))
  }

  /** A JavaScript number as far as the speed figure needs one. */
  datatype JsNumber = Finite(value: int) | Infinity | NaN

  /** `Math.round(totalWords / (totalTimeSeconds / 60))` as written, with no
      guard against a zero time: `x / 0` is `Infinity` for `x > 0` and `NaN`
      for `x == 0`, and `Math.round` passes both through. */
  function WpmAsWritten(totalWords: nat, totalTimeSeconds: nat): (r: JsNumber)
    ensures totalTimeSeconds > 0 ==> r == Finite(Wpm(totalWords, totalTimeSeconds))
    ensures totalTimeSeconds == 0 ==> (r == Infinity <==> totalWords > 0)
    ensures totalTimeSeconds == 0 ==> (r == NaN <==> totalWords == 0)
  {
    if totalTimeSeconds == 0 then (if totalWords == 0 then NaN else Infinity)
    else Finite(RoundHalfUp(60 * totalWords, totalTimeSeconds))
  }

  /** The speed figure with the same zero-time guard the saved record uses:
      always a finite non-negative number, equal to the record's speed. */
  function GuardedWpm(totalWords: nat, totalTimeSeconds: nat): (r: JsNumber)
    ensures r.Finite? && r.value >= 0
    ensures r.value == Wpm(totalWords, totalTimeSeconds)
    ensures totalTimeSeconds > 0 ==> r == WpmAsWritten(totalWords, totalTimeSeconds)
  {
    Finite(Wpm(totalWords, totalTimeSeconds))
  }

  /** At zero seconds the screen shows a non-finite speed where the saved
      record holds a finite one. */
  lemma WpmAsWrittenAtZeroTime()
    ensures WpmAsWritten(3, 0) == Infinity && Wpm(3, 0) == 180
    ensures WpmAsWritten(0, 0) == NaN && Wpm(0, 0) == 0
  {
  }

  /** What a section row shows: its text, or the "No content written." note. */
  datatype Shown = Written(text: string) | NoContentWritten

  datatype Row = Row(title: string, shown: Shown)

  /** `data.sections[id] || <placeholder>`. */
  function Show(sections: Dict, id: string): (r: Shown)
    ensures r == NoContentWritten <==> Get(sections, id) == None || Get(sections, id) == Some("")
    ensures r.Written? ==> Get(sections, id) == Some(r.text) && r.text != ""
  {
    match Get(sections, id)
    case Some(text) => if text != "" then Written(text) else NoContentWritten
    case None => NoContentWritten
  }

  /** One row per catalog section, in catalog order. */
  function Rows(sections: Dict): (r: seq<Row>)
    ensures |r| == |Sections|
    ensures forall i :: 0 <= i < |Sections| ==> r[i].title == Sections[i].title
    ensures forall i :: 0 <= i < |Sections| ==>
      (r[i].shown == NoContentWritten <==> Get(sections, Sections[i].id) == None || Get(sections, Sections[i].id) == Some(""))
    ensures forall i :: 0 <= i < |Sections| ==> r[i].shown.Written? ==> Get(sections, Sections[i].id) == Some(r[i].shown.text)
  {
    seq(|Sections|, i requires 0 <= i < |Sections| => Row(Sections[i].title, Show(sections, Sections[i].id)))
  }
}

=== FILE: review_prompt.dfy ===
/** The text handed to an external writing assistant: fixed instructions around the
    topic and every catalog section in catalog order. */
module ReviewPrompt {
  import opened Common
  import opened Dict
  import opened Catalog
  import opened Types

  const Placeholder: string := "(No content)"

  const Preamble: string :=
    "You are an expert writing coach and editor. A student has just written a \"Minute Essay\" under strict time constraints (5 minutes total).\n"
    + "\n"
    + "Here is their essay:\n"
    + "---\n"

  const Closing: string :=
    "\n"
    + "---\n"
    + "\n"
    + "Please provide a concise but helpful review.\n"
    + "1. Rate the flow and clarity (out of 10).\n"
    + "2. Identify 2 strong points (Pros).\n"
    + "3. Identify 2 areas for improvement (Cons/Constructive Feedback).\n"
    + "4. Give a brief overall comment on how well they defended the topic given the time limit.\n"
    + "\n"
    + "Format the output in clear Markdown. Be encouraging but honest."

  /** `essay.sections[id] || '(No content)'`. */
  function SectionText(sections: Dict, id: string): (r: string)
    ensures r != []
    ensures r == Placeholder <==> Get(sections, id) == None || Get(sections, id) == Some("") || Get(sections, id) == Some(Placeholder)
    ensures r != Placeholder ==> Get(sections, id) == Some(r)
  {
    match Get(sections, id)
    case Some(text) => if text != "" then text else Placeholder
    case None => Placeholder
  }

  /** One section: its bracketed title, its text and a blank line. */
  function SectionBlock(config: SectionConfig, sections: Dict): string {
    "[" + config.title + "]\n" + SectionText(sections, config.id) + "\n\n"
  }

  /** The blocks of `configs`, in order. */
  function SectionBlocks(configs: seq<SectionConfig>, sections: Dict): string {
    if |configs| == 0 then "" else SectionBlock(configs[0], sections) + SectionBlocks(configs[1..], sections)
  }

  /** `fullEssayText`. */
  function EssayText(essay: EssayData): string {
    "Topic: " + essay.topic + "\n\n" + SectionBlocks(Sections, essay.sections)
  }

  /** `generateReviewPrompt`: the fixed instructions, then the topic line,
      and the fixed closing instructions at the very end. */
  function GenerateReviewPrompt(essay: EssayData): (r: string)
    ensures Preamble + ("Topic: " + essay.topic) <= r
    ensures |Closing| <= |r| && r[|r| - |Closing|..] == Closing
  {
    var head := "Topic: " + essay.topic;
    var rest := "\n\n" + SectionBlocks(Sections, essay.sections);
    assert EssayText(essay) == head + rest;
    Framed(Preamble, head, rest, Closing);
    Preamble + EssayText(essay) + Closing
  }

  /** The opening parts and the closing part can be read back off the whole. */
  lemma Framed<T>(a: seq<T>, h: seq<T>, t: seq<T>, c: seq<T>)
    ensures a + h <= a + (h + t) + c
    ensures var w := a + (h + t) + c; |c| <= |w| && w[|w| - |c|..] == c
  {
    var w := a + (h + t) + c;
    assert w == (a + h) + (t + c);
  }

  /** The section blocks are the five catalog sections, in catalog order. */
  lemma BlocksInCatalogOrder(s: Dict)
    ensures SectionBlocks(Sections, s) ==
      SectionBlock(Sections[0], s)
      + (SectionBlock(Sections[1], s)
      + (SectionBlock(Sections[2], s)
      + (SectionBlock(Sections[3], s)
      + (SectionBlock(Sections[4], s) + ""))))
  {
    var c1, c2, c3, c4 := Sections[1..], Sections[2..], Sections[3..], Sections[4..];
    assert c1[1..] == c2 && c2[1..] == c3 && c3[1..] == c4 && c4[1..] == [];
    assert SectionBlocks(c4, s) == SectionBlock(Sections[4], s) + "";
    assert SectionBlocks(c3, s) == SectionBlock(Sections[3], s) + SectionBlocks(c4, s);
    assert SectionBlocks(c2, s) == SectionBlock(Sections[2], s) + SectionBlocks(c3, s);
    assert SectionBlocks(c1, s) == SectionBlock(Sections[1], s) + SectionBlocks(c2, s);
  }

  /** The prompt is the instructions, the topic line, the five section blocks
      in catalog order and the closing instructions. */
  lemma PromptLayout(essay: EssayData)
    ensures var s := essay.sections;
      GenerateReviewPrompt(essay) ==
        Preamble
        + ("Topic: " + essay.topic + "\n\n"
           + (SectionBlock(Sections[0], s)
           + (SectionBlock(Sections[1], s)
           + (SectionBlock(Sections[2], s)
           + (SectionBlock(Sections[3], s)
           + (SectionBlock(Sections[4], s) + ""))))))
        + Closing
  {
    BlocksInCatalogOrder(essay.sections);
  }

  /** Each block is the bracketed catalog title, the text or placeholder, and a blank line. */
  lemma BlockLayout(s: Dict)
    ensures SectionBlock(Sections[0], s) == "[Introduction]\n" + SectionText(s, "intro") + "\n\n"
    ensures SectionBlock(Sections[1], s) == "[Key Point 1]\n" + SectionText(s, "point1") + "\n\n"
    ensures SectionBlock(Sections[2], s) == "[Key Point 2]\n" + SectionText(s, "point2") + "\n\n"
    ensures SectionBlock(Sections[3], s) == "[Key Point 3]\n" + SectionText(s, "point3") + "\n\n"
    ensures SectionBlock(Sections[4], s) == "[Conclusion]\n" + SectionText(s, "conclusion") + "\n\n"
  {
    Headings();
  }

  /** The heading line of each catalog section. */
  lemma Headings()
    ensures "[" + Sections[0].title + "]\n" == "[Introduction]\n"
    ensures "[" + Sections[1].title + "]\n" == "[Key Point 1]\n"
    ensures "[" + Sections[2].title + "]\n" == "[Key Point 2]\n"
    ensures "[" + Sections[3].title + "]\n" == "[Key Point 3]\n"
    ensures "[" + Sections[4].title + "]\n" == "[Conclusion]\n"
  {
  }

  /** Entries whose keys are not catalog ids never reach the prompt: two
      essays that agree on the catalog ids give the same prompt. */
  lemma {:induction false} BlocksIgnoreOtherKeys(configs: seq<SectionConfig>, a: Dict, b: Dict)
    requires forall i :: 0 <= i < |configs| ==> Get(a, configs[i].id) == Get(b, configs[i].id)
    ensures SectionBlocks(configs, a) == SectionBlocks(configs, b)
  {
    if |configs| > 0 {
      BlocksIgnoreOtherKeys(configs[1..], a, b);
    }
  }

  lemma PromptIgnoresOtherKeys(e1: EssayData, e2: EssayData)
    requires e1.topic == e2.topic
    requires forall i :: 0 <= i < |Sections| ==> Get(e1.sections, Sections[i].id) == Get(e2.sections, Sections[i].id)
    ensures GenerateReviewPrompt(e1) == GenerateReviewPrompt(e2)
  {
    BlocksIgnoreOtherKeys(Sections, e1.sections, e2.sections);
  }

  /** The elapsed time is not part of the prompt. */
  lemma PromptIgnoresTime(essay: EssayData, otherTime: nat)
    ensures GenerateReviewPrompt(essay) == GenerateReviewPrompt(essay.(totalTimeSeconds := otherTime))
  {
  }
}

=== FILE: scoring.dfy ===
/**
 The statistics computed when an essay is finished: the total word count
 over every section text and the words-per-minute figure.
 */
module Scoring {
  import opened Text
  import opened Dict

  /** `texts.reduce((acc, text) => acc + wordCount(text), 0)`: zero exactly
      when no text holds anything but whitespace. */
  function TotalWords(texts: seq<string>): (r: nat)
    ensures r == 0 <==> AllBlank(texts)
  {
    if |texts| == 0 then 0
    else
      WordCountZeroIffBlank(texts[0]);
      AllBlankCons(texts);
      WordCount(texts[0]) + TotalWords(texts[1..])
  }

  /** Every text is empty or whitespace only. */
  predicate AllBlank(texts: seq<string>) {
    forall i :: 0 <= i < |texts| ==> Blank(texts[i])
  }

  lemma AllBlankCons(texts: seq<string>)
    requires |texts| > 0
    ensures AllBlank(texts) <==> Blank(texts[0]) && AllBlank(texts[1..])
  {
    assert forall i :: 1 <= i < |texts| ==> texts[i] == texts[1..][i - 1];
  }

  /** `Math.round(num / den)` for a non-negative quotient, on exact rationals:
      the nearest integer, halves rounding up. */
  function RoundHalfUp(num: nat, den: nat): (r: nat)
    requires den > 0
    ensures 2 * r * den <= 2 * num + den < 2 * r * den + 2 * den
  {
    (2 * num + den) / (2 * den)
  }

  /** `Math.round(totalWords / (safeTime / 60)) || 0` where `safeTime` replaces
      a zero time by one second. The result is the words per minute rounded
      to the nearest integer, never negative and zero for no words. */
  function Wpm(totalWords: nat, finalTime: nat): (r: nat)
    ensures var t := if finalTime == 0 then 1 else finalTime;
      2 * r * t <= 120 * totalWords + t < 2 * r * t + 2 * t
    ensures totalWords == 0 ==> r == 0
  {
    var safeTime := if finalTime == 0 then 1 else finalTime;
    RoundHalfUp(60 * totalWords, safeTime)
  }

  /** The word total of a dictionary's values. */
  function ContentWords(d: Dict): nat {
    TotalWords(Values(d))
  }

  lemma {:induction false} TotalWordsAppend(a: seq<string>, b: seq<string>)
    ensures TotalWords(a + b) == TotalWords(a) + TotalWords(b)
  {
    if |a| == 0 {
      assert a + b == b;
    } else {
      assert (a + b)[1..] == a[1..] + b;
      TotalWordsAppend(a[1..], b);
    }
  }

  /** A dictionary's word total is zero exactly when every value is blank. */
  lemma ContentWordsZeroIff(d: Dict)
    ensures ContentWords(d) == 0 <==> forall i :: 0 <= i < |d| ==> Blank(d[i].value)
  {
    var vs := Values(d);
    assert forall i :: 0 <= i < |d| ==> vs[i] == d[i].value;
  }

  /** Writing a new key adds exactly the words of its text to the total. */
  lemma PutNewKeyWords(d: Dict, k: string, v: string)
    requires k !in Keys(d)
    ensures ContentWords(Put(d, k, v)) == ContentWords(d) + WordCount(v)
  {
    ValuesAppend(d, [Entry(k, v)]);
    TotalWordsAppend(Values(d), [v]);
    assert Values([Entry(k, v)]) == [v];
  }

  /** Three words in five minutes round up to one word per minute. */
  lemma WpmThreeWordsFiveMinutes()
    ensures Wpm(3, 300) == 1
  {
  }

  /** With no time elapsed, the guard divides by one second. */
  lemma WpmAtZeroTime(totalWords: nat)
    ensures Wpm(totalWords, 0) == 60 * totalWords
  {
  }
}

=== FILE: storage.dfy ===
/**
 The saved-essay history in the browser's local storage. The store is a map
 from keys to payloads; JSON serialisation is abstracted to a payload that
 is empty text, text that does not parse, or a serialised list of records.
 Whether the browser's storage rejects a call is an input.
 */
module Storage {
  import opened Common
  import opened Types

  const StorageKey: string := "minute_essays_history"

  datatype Payload = EmptyText | Unparseable | Serialized(items: seq<HistoryItem>)

  type LocalStorage = map<string, Payload>

  /** `getEssayHistory`: missing, empty and unparseable payloads all read as
      no history. */
  function Load(store: LocalStorage): (r: seq<HistoryItem>)
    ensures StorageKey !in store ==> r == []
    ensures StorageKey in store && store[StorageKey].Serialized? ==> r == store[StorageKey].items
    ensures StorageKey in store && !store[StorageKey].Serialized? ==> r == []
  {
    if StorageKey !in store then []
    else
      match store[StorageKey]
      case EmptyText => []
      case Unparseable => []
      case Serialized(items) => items
  }

  /** `saveEssayToHistory`: the new record goes in front of what `Load` reads;
      a rejected write is swallowed and leaves the store as it was. */
  function Save(store: LocalStorage, item: HistoryItem, writeFails: bool): (r: LocalStorage)
    ensures writeFails ==> r == store
    ensures !writeFails ==> Load(r) == [item] + Load(store)
    ensures forall k :: k != StorageKey ==> (k in r <==> k in store)
    ensures forall k :: k != StorageKey && k in store ==> r[k] == store[k]
  {
    var existing := Load(store);
    var updated := [item] + existing;
    if writeFails then store else store[StorageKey := Serialized(updated)]
  }

  /** `clearHistory`: removes the key. Nothing catches a failing removal, so
      it throws, which is `None` here. */
  function Clear(store: LocalStorage, removalFails: bool): (r: Option<LocalStorage>)
    ensures r.None? <==> removalFails
    ensures r.Some? ==> StorageKey !in r.value
    ensures r.Some? ==> forall k :: k != StorageKey ==> (k in r.value <==> k in store)
    ensures r.Some? ==> forall k :: k != StorageKey && k in store ==> r.value[k] == store[k]
  {
    if removalFails then None else Some(store - {StorageKey})
  }

  /** After a successful save the new record is first and the list grew by one. */
  lemma SaveThenLoad(store: LocalStorage, item: HistoryItem)
    ensures var loaded := Load(Save(store, item, false));
      |loaded| == |Load(store)| + 1 && loaded[0] == item && loaded[1..] == Load(store)
  {
  }

  lemma ClearThenLoad(store: LocalStorage)
    ensures Load(Clear(store, false).value) == []
  {
  }

  /** Saving over an unparseable payload replaces it with a one-record list. */
  lemma SaveOverCorrupt(store: LocalStorage, item: HistoryItem)
    requires StorageKey in store && store[StorageKey] == Unparseable
    ensures Save(store, item, false)[StorageKey] == Serialized([item])
  {
  }
}

=== FILE: text.dfy ===
/**
 The text heuristics the application applies to what the writer types:
 `trim()`, `split` on a regular expression that matches runs of one
 character class, and the word and sentence counts built from them.
 */
module Text {
  import opened Common

  /** The characters JavaScript's `\s` class matches; `String.prototype.trim`
      strips exactly the same set. */
  predicate IsWhitespace(c: char) {
    var n := c as int;
    (0x09 <= n <= 0x0D) || n == 0x20 || n == 0xA0 || n == 0x1680
    || (0x2000 <= n <= 0x200A) || n == 0x2028 || n == 0x2029
    || n == 0x202F || n == 0x205F || n == 0x3000 || n == 0xFEFF
  }

  /** The characters of the sentence-splitting class `[.!?]`. */
  predicate IsTerminator(c: char) {
    c == '.' || c == '!' || c == '?'
  }

  /** The two character classes the source splits on. */
  datatype Delimiter = Whitespace | Terminator

  predicate IsDelimiter(d: Delimiter, c: char) {
    match d
    case Whitespace => IsWhitespace(c)
    case Terminator => IsTerminator(c)
  }

  /** True when every character of `s` is whitespace (including when `s` is empty). */
  predicate Blank(s: string) {
    forall i :: 0 <= i < |s| ==> IsWhitespace(s[i])
  }

  /** True when every character of `p` belongs to the class `d`. */
  predicate AllDelimiters(d: Delimiter, p: string) {
    forall i :: 0 <= i < |p| ==> IsDelimiter(d, p[i])
  }

  /** The longest suffix of `s` that does not start with a delimiter of kind `d`. */
  function DropLeading(d: Delimiter, s: string): (r: string)
    ensures |r| <= |s| && r == s[|s| - |r|..]
    ensures AllDelimiters(d, s[..|s| - |r|])
    ensures r == [] || !IsDelimiter(d, r[0])
  {
    if |s| > 0 && IsDelimiter(d, s[0]) then DropLeading(d, s[1..]) else s
  }

  /** The longest prefix of `s` that does not end with a delimiter of kind `d`. */
  function DropTrailing(d: Delimiter, s: string): (r: string)
    ensures |r| <= |s| && r == s[..|r|]
    ensures AllDelimiters(d, s[|r|..])
    ensures r == [] || !IsDelimiter(d, r[|r| - 1])
  {
    if |s| > 0 && IsDelimiter(d, s[|s| - 1]) then DropTrailing(d, s[..|s| - 1]) else s
  }

  /** `s.trim()`. */
  function Trim(s: string): string
  {
    DropTrailing(Whitespace, DropLeading(Whitespace, s))
  }

  /** Trimming removes exactly the whitespace margins: the result is the part
      of `s` between a blank prefix and a blank suffix, and neither starts nor
      ends with whitespace. */
  lemma TrimIsMiddle(s: string)
    ensures var r := Trim(s);
      && (r == [] || (!IsWhitespace(r[0]) && !IsWhitespace(r[|r| - 1])))
      && exists i :: 0 <= i <= |s| - |r| && r == s[i..i + |r|] && Blank(s[..i]) && Blank(s[i + |r|..])
  {
    var l := DropLeading(Whitespace, s);
    MiddleSlice(s, l, Trim(s));
  }

  /** A prefix `r` of a suffix `l` of `s`, both cut off with whitespace only,
      is the part of `s` between two blank margins. */
  lemma MiddleSlice(s: string, l: string, r: string)
    requires |l| <= |s| && l == s[|s| - |l|..] && AllDelimiters(Whitespace, s[..|s| - |l|])
    requires |r| <= |l| && r == l[..|r|] && AllDelimiters(Whitespace, l[|r|..])
    ensures var i := |s| - |l|; r == s[i..i + |r|] && Blank(s[..i]) && Blank(s[i + |r|..])
  {
    var i := |s| - |l|;
    assert s[..i][0..] == s[..i];
    forall j | i + |r| <= j < |s|
      ensures IsWhitespace(s[j])
    {
      assert s[j] == l[|r|..][j - i - |r|];
    }
  }

  /** `s.split(/D+/)` for the class of `d`: the pieces between maximal runs of
      delimiters, with an empty first (last) piece when `s` starts (ends) with
      a run, and the single piece `""` for the empty string. */
  function Split(d: Delimiter, s: string): (r: seq<string>)
    ensures |r| >= 1
    decreases |s|
  {
    if |s| == 0 then [[]]
    else if IsDelimiter(d, s[0]) then [[]] + Split(d, DropLeading(d, s))
    else
      var rest := Split(d, s[1..]);
      [[s[0]] + rest[0]] + rest[1..]
  }

  /** The two filters the source applies to split pieces:
      `w => w.length > 0` and `s => s.trim().length > 0`. */
  datatype PieceFilter = NonEmpty | NonBlank

  predicate Kept(f: PieceFilter, p: string) {
    match f
    case NonEmpty => |p| > 0
    case NonBlank => |Trim(p)| > 0
  }

  /** `pieces.filter(f).length`. */
  function CountKept(f: PieceFilter, pieces: seq<string>): nat {
    if |pieces| == 0 then 0
    else (if Kept(f, pieces[0]) then 1 else 0) + CountKept(f, pieces[1..])
  }

  /** `text.trim().split(/\s+/).filter(w => w.length > 0).length`, the word
      count shared by the writing card, the result screen and the finish step:
      the number of maximal runs of non-whitespace characters. */
  function WordCount(text: string): (r: nat)
    ensures r == Runs(Whitespace, text)
  {
    TrimmedWordsAreRuns(text);
    CountKept(NonEmpty, Split(Whitespace, Trim(text)))
  }

  /** `text.split(/[.!?]+/).filter(s => s.trim().length > 0).length`: the
      number of maximal runs of non-terminators that hold a non-whitespace
      character. */
  function SentenceCount(text: string): (r: nat)
    ensures r == Sentences(text)
  {
    NonBlankPiecesAreSentences(text);
    CountKept(NonBlank, Split(Terminator, text))
  }

  // ---------------------------------------------------------------------------
  // An independent reference: maximal runs of non-delimiter characters.
  // ---------------------------------------------------------------------------

  /** The number of maximal runs of characters outside class `d` in `s`, where
      `afterDelimiter` says whether the character before `s` (if any) was a
      delimiter: a run starts at each non-delimiter that follows a delimiter. */
  function RunsFrom(d: Delimiter, s: string, afterDelimiter: bool): nat {
    if |s| == 0 then 0
    else
      var starts := !IsDelimiter(d, s[0]) && afterDelimiter;
      (if starts then 1 else 0) + RunsFrom(d, s[1..], IsDelimiter(d, s[0]))
  }

  function Runs(d: Delimiter, s: string): nat {
    RunsFrom(d, s, true)
  }

  /** The number of sentences in `s`: maximal runs of non-terminators holding
      at least one non-whitespace character. `counted` says whether the run
      in progress before `s` already holds one, and so has been counted. */
  function SentencesFrom(s: string, counted: bool): nat {
    if |s| == 0 then 0
    else if IsTerminator(s[0]) then SentencesFrom(s[1..], false)
    else if IsWhitespace(s[0]) then SentencesFrom(s[1..], counted)
    else (if counted then 0 else 1) + SentencesFrom(s[1..], true)
  }

  function Sentences(s: string): nat {
    SentencesFrom(s, false)
  }

  /** `s` with every character of class `d` removed. */
  function Strip(d: Delimiter, s: string): string {
    if |s| == 0 then []
    else if IsDelimiter(d, s[0]) then Strip(d, s[1..])
    else [s[0]] + Strip(d, s[1..])
  }

  /** `pieces.join("")`. */
  function Concat(pieces: seq<string>): string {
    if |pieces| == 0 then [] else pieces[0] + Concat(pieces[1..])
  }

  // ---------------------------------------------------------------------------
  // Lemmas
  // ---------------------------------------------------------------------------

  lemma CountKeptAppend(f: PieceFilter, a: seq<string>, b: seq<string>)
    ensures CountKept(f, a + b) == CountKept(f, a) + CountKept(f, b)
  {
    if |a| == 0 {
      assert a + b == b;
    } else {
      assert (a + b)[1..] == a[1..] + b;
      CountKeptAppend(f, a[1..], b);
    }
  }

  /** Trimming leaves a string empty exactly when it was blank. */
  lemma TrimEmptyIffBlank(s: string)
    ensures |Trim(s)| == 0 <==> Blank(s)
  {
    var l := DropLeading(Whitespace, s);
    if |l| > 0 {
      assert !IsWhitespace(l[0]);
      assert !IsWhitespace(s[|s| - |l|]);
    }
  }

  /** Each piece of a split holds no delimiter of the class split on. */
  lemma {:induction false} SplitPiecesHaveNoDelimiter(d: Delimiter, s: string)
    ensures forall i, j :: 0 <= i < |Split(d, s)| && 0 <= j < |Split(d, s)[i]| ==> !IsDelimiter(d, Split(d, s)[i][j])
    decreases |s|
  {
    if |s| == 0 {
    } else if IsDelimiter(d, s[0]) {
      SplitPiecesHaveNoDelimiter(d, DropLeading(d, s));
    } else {
      SplitPiecesHaveNoDelimiter(d, s[1..]);
      var rest := Split(d, s[1..]);
      assert Split(d, s) == [[s[0]] + rest[0]] + rest[1..];
      forall i, j | 0 <= i < |Split(d, s)| && 0 <= j < |Split(d, s)[i]|
        ensures !IsDelimiter(d, Split(d, s)[i][j])
      {
        if i == 0 {
          if j > 0 {
            assert Split(d, s)[0][j] == rest[0][j - 1];
          }
        } else {
          assert Split(d, s)[i] == rest[i];
        }
      }
    }
  }

  /** A string without delimiters splits into itself alone. */
  lemma {:induction false} SplitWithoutDelimiter(d: Delimiter, s: string)
    requires forall i :: 0 <= i < |s| ==> !IsDelimiter(d, s[i])
    ensures Split(d, s) == [s]
    decreases |s|
  {
    if |s| > 0 {
      SplitWithoutDelimiter(d, s[1..]);
      assert [s[0]] + s[1..] == s;
    }
  }

  lemma {:induction false} DropLeadingSnoc(d: Delimiter, s: string, c: char)
    requires IsDelimiter(d, c)
    ensures DropLeading(d, s + [c]) == if DropLeading(d, s) == [] then [] else DropLeading(d, s) + [c]
    decreases |s|
  {
    if |s| > 0 && IsDelimiter(d, s[0]) {
      assert (s + [c])[1..] == s[1..] + [c];
      DropLeadingSnoc(d, s[1..], c);
    } else if |s| == 0 {
      assert s + [c] == [c];
      assert [c][1..] == [];
    }
  }

  /** Appending one delimiter either adds an empty last piece or, when `s`
      already ends with a delimiter, only lengthens the last run. */
  lemma {:induction false} SplitSnoc(d: Delimiter, s: string, c: char)
    requires IsDelimiter(d, c)
    ensures |s| > 0 && IsDelimiter(d, s[|s| - 1]) ==> Split(d, s + [c]) == Split(d, s)
    ensures !(|s| > 0 && IsDelimiter(d, s[|s| - 1])) ==> Split(d, s + [c]) == Split(d, s) + [[]]
    decreases |s|, 1
  {
    if |s| == 0 {
      assert s + [c] == [c];
      DropLeadingSnoc(d, s, c);
      assert Split(d, [c]) == [[]] + Split(d, []);
    } else if IsDelimiter(d, s[0]) {
      SplitSnocDelimiterHead(d, s, c);
    } else {
      SplitSnocOtherHead(d, s, c);
    }
  }

  lemma {:induction false} SplitSnocDelimiterHead(d: Delimiter, s: string, c: char)
    requires IsDelimiter(d, c) && |s| > 0 && IsDelimiter(d, s[0])
    ensures IsDelimiter(d, s[|s| - 1]) ==> Split(d, s + [c]) == Split(d, s)
    ensures !IsDelimiter(d, s[|s| - 1]) ==> Split(d, s + [c]) == Split(d, s) + [[]]
    decreases |s|, 0
  {
    if DropLeading(d, s) == [] {
      SplitSnocAllDelimiters(d, s, c);
    } else {
      SplitSnoc(d, DropLeading(d, s), c);
      SplitSnocAfterRun(d, s, c);
    }
  }

  lemma SplitSnocAllDelimiters(d: Delimiter, s: string, c: char)
    requires IsDelimiter(d, c) && |s| > 0 && DropLeading(d, s) == []
    ensures IsDelimiter(d, s[|s| - 1]) && Split(d, s + [c]) == Split(d, s)
  {
    var sc := s + [c];
    DropLeadingSnoc(d, s, c);
    assert Split(d, sc) == [[]] + Split(d, DropLeading(d, sc)) by {
      assert |sc| > 0 && IsDelimiter(d, sc[0]);
    }
  }

  lemma SplitSnocAfterRun(d: Delimiter, s: string, c: char)
    requires IsDelimiter(d, c) && |s| > 0 && IsDelimiter(d, s[0]) && DropLeading(d, s) != []
    requires var t := DropLeading(d, s);
      && (IsDelimiter(d, t[|t| - 1]) ==> Split(d, t + [c]) == Split(d, t))
      && (!IsDelimiter(d, t[|t| - 1]) ==> Split(d, t + [c]) == Split(d, t) + [[]])
    ensures IsDelimiter(d, s[|s| - 1]) ==> Split(d, s + [c]) == Split(d, s)
    ensures !IsDelimiter(d, s[|s| - 1]) ==> Split(d, s + [c]) == Split(d, s) + [[]]
  {
    var t := DropLeading(d, s);
    var sc := s + [c];
    DropLeadingSnoc(d, s, c);
    assert sc[0] == s[0];
    SplitDelimiterHead(d, sc);
    SplitDelimiterHead(d, s);
    assert t[|t| - 1] == s[|s| - 1];
    var x := Split(d, t);
    var e: seq<string> := [[]];
    if IsDelimiter(d, s[|s| - 1]) {
      assert Split(d, sc) == e + x;
    } else {
      assert Split(d, sc) == e + (x + e);
      AppendAssoc(e, x, e);
    }
  }

  /** A leading delimiter run contributes one empty piece. */
  lemma SplitDelimiterHead(d: Delimiter, s: string)
    requires |s| > 0 && IsDelimiter(d, s[0])
    ensures Split(d, s) == [[]] + Split(d, DropLeading(d, s))
  {
  }

  /** A leading non-delimiter starts the first piece. */
  lemma SplitOtherHead(d: Delimiter, s: string)
    requires |s| > 0 && !IsDelimiter(d, s[0])
    ensures Split(d, s) == [[s[0]] + Split(d, s[1..])[0]] + Split(d, s[1..])[1..]
  {
  }

  lemma {:induction false} SplitSnocOtherHead(d: Delimiter, s: string, c: char)
    requires IsDelimiter(d, c) && |s| > 0 && !IsDelimiter(d, s[0])
    ensures IsDelimiter(d, s[|s| - 1]) ==> Split(d, s + [c]) == Split(d, s)
    ensures !IsDelimiter(d, s[|s| - 1]) ==> Split(d, s + [c]) == Split(d, s) + [[]]
    decreases |s|, 0
  {
    var sc := s + [c];
    assert sc[0] == s[0];
    assert sc[1..] == s[1..] + [c];
    var rest := Split(d, s[1..]);
    var rest' := Split(d, s[1..] + [c]);
    SplitOtherHead(d, s);
    SplitOtherHead(d, sc);
    SplitSnoc(d, s[1..], c);
    if |s| > 1 {
      assert s[1..][|s[1..]| - 1] == s[|s| - 1];
    }
    var h := [[s[0]] + rest[0]];
    var e: seq<string> := [[]];
    if IsDelimiter(d, s[|s| - 1]) {
      assert rest' == rest;
    } else {
      assert rest' == rest + e;
      assert rest'[0] == rest[0];
      assert rest'[1..] == rest[1..] + e;
      assert Split(d, sc) == h + (rest[1..] + e);
      AppendAssoc(h, rest[1..], e);
    }
  }

  /** The non-empty pieces of a split are exactly the maximal non-delimiter
      runs; the second conjunct covers a string that continues a run. */
  lemma {:induction false} SplitCountsRuns(d: Delimiter, s: string)
    ensures CountKept(NonEmpty, Split(d, s)) == RunsFrom(d, s, true)
    ensures CountKept(NonEmpty, Split(d, s)[1..]) == RunsFrom(d, s, false)
    decreases |s|
  {
    if |s| == 0 {
    } else if IsDelimiter(d, s[0]) {
      var t := DropLeading(d, s);
      SplitCountsRuns(d, t);
      RunsSkipLeading(d, s[1..]);
      assert DropLeading(d, s[1..]) == t;
      assert Split(d, s)[1..] == Split(d, t);
    } else {
      SplitCountsRuns(d, s[1..]);
      var rest := Split(d, s[1..]);
      assert Split(d, s)[1..] == rest[1..];
    }
  }

  /** Leading delimiters start no run. */
  lemma {:induction false} RunsSkipLeading(d: Delimiter, s: string)
    ensures RunsFrom(d, s, true) == RunsFrom(d, DropLeading(d, s), true)
    decreases |s|
  {
    if |s| > 0 && IsDelimiter(d, s[0]) {
      RunsSkipLeading(d, s[1..]);
    }
  }

  /** A trailing delimiter starts no run. */
  lemma {:induction false} RunsSnoc(d: Delimiter, s: string, c: char, b: bool)
    requires IsDelimiter(d, c)
    ensures RunsFrom(d, s + [c], b) == RunsFrom(d, s, b)
    decreases |s|
  {
    if |s| == 0 {
      assert s + [c] == [c];
      assert [c][1..] == [];
    } else {
      assert (s + [c])[1..] == s[1..] + [c];
      RunsSnoc(d, s[1..], c, IsDelimiter(d, s[0]));
    }
  }

  lemma {:induction false} RunsSkipTrailing(d: Delimiter, s: string, b: bool)
    ensures RunsFrom(d, s, b) == RunsFrom(d, DropTrailing(d, s), b)
    decreases |s|
  {
    if |s| > 0 && IsDelimiter(d, s[|s| - 1]) {
      var init := s[..|s| - 1];
      assert s == init + [s[|s| - 1]];
      RunsSnoc(d, init, s[|s| - 1], b);
      RunsSkipTrailing(d, init, b);
    }
  }

  /** The words of the trimmed text are the maximal runs of non-whitespace
      characters of the untrimmed text. */
  lemma TrimmedWordsAreRuns(text: string)
    ensures CountKept(NonEmpty, Split(Whitespace, Trim(text))) == Runs(Whitespace, text)
  {
    var l := DropLeading(Whitespace, text);
    SplitCountsRuns(Whitespace, DropTrailing(Whitespace, l));
    RunsSkipTrailing(Whitespace, l, true);
    RunsSkipLeading(Whitespace, text);
  }

  lemma {:induction false} RunsZeroIffBlank(s: string)
    ensures Runs(Whitespace, s) == 0 <==> Blank(s)
    decreases |s|
  {
    if |s| > 0 {
      RunsZeroIffBlank(s[1..]);
      if IsWhitespace(s[0]) {
        assert Blank(s) <==> Blank(s[1..]);
      }
    }
  }

  /** No words exactly when the text is empty or whitespace only. */
  lemma WordCountZeroIffBlank(text: string)
    ensures WordCount(text) == 0 <==> Blank(text)
  {
    RunsZeroIffBlank(text);
  }

  /** Trailing whitespace never changes the word count. */
  lemma WordCountIgnoresTrailingSpace(text: string, c: char)
    requires IsWhitespace(c)
    ensures WordCount(text + [c]) == WordCount(text)
  {
    RunsSnoc(Whitespace, text, c, true);
  }

  /** Joined back together, the pieces of a split are the text without its
      delimiters: splitting drops the delimiters and nothing else. */
  lemma {:induction false} SplitKeepsText(d: Delimiter, s: string)
    ensures Concat(Split(d, s)) == Strip(d, s)
    decreases |s|
  {
    if |s| == 0 {
      assert Concat([[]]) == [] + Concat([]);
    } else if IsDelimiter(d, s[0]) {
      var t := DropLeading(d, s);
      assert t == DropLeading(d, s[1..]);
      SplitKeepsText(d, t);
      SplitDelimiterHead(d, s);
      assert ([[]] + Split(d, t))[1..] == Split(d, t);
      StripSkipsLeading(d, s[1..]);
    } else {
      var rest := Split(d, s[1..]);
      SplitKeepsText(d, s[1..]);
      SplitOtherHead(d, s);
      assert Split(d, s)[1..] == rest[1..];
      assert Concat(rest) == rest[0] + Concat(rest[1..]);
      AppendAssoc([s[0]], rest[0], Concat(rest[1..]));
    }
  }

  /** Leading delimiters contribute nothing to the stripped text. */
  lemma {:induction false} StripSkipsLeading(d: Delimiter, s: string)
    ensures Strip(d, DropLeading(d, s)) == Strip(d, s)
    decreases |s|
  {
    if |s| > 0 && IsDelimiter(d, s[0]) {
      StripSkipsLeading(d, s[1..]);
    }
  }

  /** The non-blank pieces of a split on terminators are the sentences. */
  lemma NonBlankPiecesAreSentences(text: string)
    ensures CountKept(NonBlank, Split(Terminator, text)) == Sentences(text)
  {
    var pieces := Split(Terminator, text);
    NonBlankPiecesFrom(text, []);
    assert [] + pieces[0] == pieces[0];
    assert [[] + pieces[0]] + pieces[1..] == pieces;
  }

  /** With `q` glued in front of the first piece, the non-blank pieces are
      the one `q` completes, if it is not blank, plus the sentences of `s`
      that `q` has not already begun. */
  lemma {:induction false} NonBlankPiecesFrom(s: string, q: string)
    ensures var pieces := Split(Terminator, s);
      CountKept(NonBlank, [q + pieces[0]] + pieces[1..])
        == (if Blank(q) then 0 else 1) + SentencesFrom(s, !Blank(q))
    decreases |s|
  {
    if |s| == 0 {
      NonBlankPiecesOfEmpty(q);
    } else if IsTerminator(s[0]) {
      var t := DropLeading(Terminator, s);
      assert t == DropLeading(Terminator, s[1..]);
      NonBlankPiecesFrom(t, []);
      NonBlankPiecesAfterTerminator(s, q);
    } else {
      NonBlankPiecesFrom(s[1..], q + [s[0]]);
      NonBlankPiecesAfterOther(s, q);
    }
  }

  lemma NonBlankPiecesOfEmpty(q: string)
    ensures var pieces := Split(Terminator, []);
      CountKept(NonBlank, [q + pieces[0]] + pieces[1..]) == (if Blank(q) then 0 else 1)
  {
    var pieces := Split(Terminator, []);
    assert pieces == [[]];
    assert q + pieces[0] == q;
    assert [q + pieces[0]] + pieces[1..] == [q] + [];
    CountKeptCons(NonBlank, q, []);
    TrimEmptyIffBlank(q);
  }

  lemma NonBlankPiecesAfterTerminator(s: string, q: string)
    requires |s| > 0 && IsTerminator(s[0])
    requires var tail := Split(Terminator, DropLeading(Terminator, s));
      CountKept(NonBlank, [[] + tail[0]] + tail[1..]) == SentencesFrom(DropLeading(Terminator, s), false)
    ensures var pieces := Split(Terminator, s);
      CountKept(NonBlank, [q + pieces[0]] + pieces[1..])
        == (if Blank(q) then 0 else 1) + SentencesFrom(s, !Blank(q))
  {
    var tail := Split(Terminator, DropLeading(Terminator, s));
    PiecesAfterTerminator(s, q);
    assert [[] + tail[0]] + tail[1..] == tail by {
      assert [] + tail[0] == tail[0];
    }
    CountKeptCons(NonBlank, q, tail);
    TrimEmptyIffBlank(q);
    SentencesAfterTerminator(s, !Blank(q));
  }

  /** Gluing `q` in front of a split that starts with a terminator run puts
      `q` alone in front of the split of what follows the run. */
  lemma PiecesAfterTerminator(s: string, q: string)
    requires |s| > 0 && IsTerminator(s[0])
    ensures var pieces := Split(Terminator, s);
      [q + pieces[0]] + pieces[1..] == [q] + Split(Terminator, DropLeading(Terminator, s))
  {
    var pieces := Split(Terminator, s);
    SplitDelimiterHead(Terminator, s);
    assert pieces[0] == [] && q + pieces[0] == q;
  }

  /** A terminator run ends the sentence in progress. */
  lemma SentencesAfterTerminator(s: string, counted: bool)
    requires |s| > 0 && IsTerminator(s[0])
    ensures SentencesFrom(s, counted) == SentencesFrom(DropLeading(Terminator, s), false)
  {
    assert DropLeading(Terminator, s) == DropLeading(Terminator, s[1..]);
    SentencesSkipTerminators(s[1..]);
  }

  lemma NonBlankPiecesAfterOther(s: string, q: string)
    requires |s| > 0 && !IsTerminator(s[0])
    requires var q' := q + [s[0]]; var rest := Split(Terminator, s[1..]);
      CountKept(NonBlank, [q' + rest[0]] + rest[1..])
        == (if Blank(q') then 0 else 1) + SentencesFrom(s[1..], !Blank(q'))
    ensures var pieces := Split(Terminator, s);
      CountKept(NonBlank, [q + pieces[0]] + pieces[1..])
        == (if Blank(q) then 0 else 1) + SentencesFrom(s, !Blank(q))
  {
    PiecesAfterOther(s, q);
    BlankSnoc(q, s[0]);
  }

  /** Gluing `q` in front of a split that starts with a non-terminator is
      gluing `q` and that character in front of the split of the rest. */
  lemma PiecesAfterOther(s: string, q: string)
    requires |s| > 0 && !IsTerminator(s[0])
    ensures var pieces := Split(Terminator, s); var rest := Split(Terminator, s[1..]);
      [q + pieces[0]] + pieces[1..] == [(q + [s[0]]) + rest[0]] + rest[1..]
  {
    var rest := Split(Terminator, s[1..]);
    SplitOtherHead(Terminator, s);
    assert q + ([s[0]] + rest[0]) == (q + [s[0]]) + rest[0];
  }

  /** Leading terminators close the run in progress and start none. */
  lemma {:induction false} SentencesSkipTerminators(s: string)
    ensures SentencesFrom(s, false) == SentencesFrom(DropLeading(Terminator, s), false)
    decreases |s|
  {
    if |s| > 0 && IsTerminator(s[0]) {
      SentencesSkipTerminators(s[1..]);
    }
  }

  lemma BlankSnoc(q: string, c: char)
    ensures Blank(q + [c]) <==> Blank(q) && IsWhitespace(c)
  {
    assert forall i :: 0 <= i < |q| ==> (q + [c])[i] == q[i];
    assert (q + [c])[|q|] == c;
  }

  /** True when `s` holds nothing but whitespace and terminators. */
  predicate SpaceOrTerminators(s: string) {
    forall i :: 0 <= i < |s| ==> IsWhitespace(s[i]) || IsTerminator(s[i])
  }

  /** No sentences exactly when every character is whitespace or a terminator. */
  lemma {:induction false} SentenceCountZeroIff(text: string)
    ensures SentenceCount(text) == 0 <==> SpaceOrTerminators(text)
    decreases |text|
  {
    if |text| == 0 {
      assert Trim([]) == [];
    } else if IsTerminator(text[0]) {
      var t := DropLeading(Terminator, text);
      SentenceCountZeroIff(t);
      SentenceCountSkipsTerminators(text);
    } else {
      SentenceCountZeroIff(text[1..]);
      SentenceCountOtherHead(text);
      SpaceOrTerminatorsCons(text);
    }
  }

  lemma SentenceCountSkipsTerminators(text: string)
    requires |text| > 0 && IsTerminator(text[0])
    ensures var t := DropLeading(Terminator, text);
      SentenceCount(text) == SentenceCount(t) && (SpaceOrTerminators(text) <==> SpaceOrTerminators(t))
  {
    var t := DropLeading(Terminator, text);
    SplitDelimiterHead(Terminator, text);
    CountKeptCons(NonBlank, [], Split(Terminator, t));
    assert !Kept(NonBlank, []) by {
      assert Trim([]) == [];
    }
    SpaceOrTerminatorsSkip(text);
  }

  lemma SpaceOrTerminatorsSkip(text: string)
    ensures var t := DropLeading(Terminator, text);
      SpaceOrTerminators(text) <==> SpaceOrTerminators(t)
  {
    var t := DropLeading(Terminator, text);
    var k := |text| - |t|;
    assert AllDelimiters(Terminator, text[..k]);
    assert forall i :: 0 <= i < k ==> text[i] == text[..k][i];
    assert forall i :: k <= i < |text| ==> text[i] == t[i - k];
  }

  lemma SentenceCountOtherHead(text: string)
    requires |text| > 0 && !IsTerminator(text[0])
    ensures SentenceCount(text) == 0 <==> IsWhitespace(text[0]) && SentenceCount(text[1..]) == 0
  {
    var rest := Split(Terminator, text[1..]);
    var first := [text[0]] + rest[0];
    var n := CountKept(NonBlank, rest[1..]);
    assert SentenceCount(text) == (if Kept(NonBlank, first) then 1 else 0) + n by {
      assert Split(Terminator, text) == [first] + rest[1..];
      CountKeptCons(NonBlank, first, rest[1..]);
    }
    assert SentenceCount(text[1..]) == (if Kept(NonBlank, rest[0]) then 1 else 0) + n by {
      assert [rest[0]] + rest[1..] == rest;
      CountKeptCons(NonBlank, rest[0], rest[1..]);
    }
    KeptNonBlankCons(text[0], rest[0]);
  }


  lemma KeptNonBlankCons(c: char, p: string)
    ensures Kept(NonBlank, [c] + p) <==> !IsWhitespace(c) || Kept(NonBlank, p)
  {
    var q := [c] + p;
    TrimEmptyIffBlank(q);
    TrimEmptyIffBlank(p);
    assert forall j :: 1 <= j < |q| ==> q[j] == p[j - 1];
  }

  lemma SpaceOrTerminatorsCons(text: string)
    requires |text| > 0 && !IsTerminator(text[0])
    ensures SpaceOrTerminators(text) <==> IsWhitespace(text[0]) && SpaceOrTerminators(text[1..])
  {
    assert forall i :: 1 <= i < |text| ==> text[i] == text[1..][i - 1];
  }

  lemma CountKeptCons(f: PieceFilter, p: string, ps: seq<string>)
    ensures CountKept(f, [p] + ps) == (if Kept(f, p) then 1 else 0) + CountKept(f, ps)
  {
    assert ([p] + ps)[1..] == ps;
  }

  /** Non-blank text with no terminator is one sentence. */
  lemma SentenceWithoutTerminator(text: string)
    requires forall i :: 0 <= i < |text| ==> !IsTerminator(text[i])
    requires !Blank(text)
    ensures SentenceCount(text) == 1
  {
    SplitWithoutDelimiter(Terminator, text);
    TrimEmptyIffBlank(text);
    assert [text][1..] == [];
    assert CountKept(NonBlank, [text]) == 1 + CountKept(NonBlank, []);
  }

  /** A terminator typed at the end never adds a sentence. */
  lemma TrailingTerminatorAddsNoSentence(text: string, c: char)
    requires IsTerminator(c)
    ensures SentenceCount(text + [c]) == SentenceCount(text)
  {
    var pieces := Split(Terminator, text);
    SplitSnoc(Terminator, text, c);
    if !(|text| > 0 && IsTerminator(text[|text| - 1])) {
      CountKeptAppend(NonBlank, pieces, [[]]);
      assert Trim([]) == [];
      assert CountKept(NonBlank, [[]]) == 0;
    }
  }
}

=== FILE: timer.dfy ===
/** The countdown shown in the header while writing. */
module Timer {
  import opened Common

  /** `Math.max(0, limit - seconds)`. */
  function Remaining(seconds: int, limit: int): (r: nat)
    ensures r >= limit - seconds
    ensures r == 0 || r == limit - seconds
  {
    Max(0, limit - seconds)
  }

  /** Whole minutes and leftover seconds of a duration. */
  datatype Clock = Clock(minutes: nat, seconds: nat)

  /** `Math.floor(t / 60)` and `t % 60` for a non-negative `t`. */
  function ToClock(total: nat): (c: Clock)
    ensures c.minutes * 60 + c.seconds == total
    ensures c.seconds < 60
  {
    Clock(total / 60, total % 60)
  }

  predicate IsUrgent(remaining: int) {
    remaining <= 60 && remaining > 10
  }

  predicate IsCritical(remaining: int) {
    remaining <= 10
  }

  /** The colour scheme: plain, amber for urgent, red for critical; the
      critical assignment comes last and wins. */
  datatype Look = Calm | Amber | Red

  function LookFor(remaining: int): (r: Look)
    ensures r == Red <==> remaining <= 10
    ensures r == Amber <==> 10 < remaining <= 60
    ensures r == Calm <==> remaining > 60
  {
    var look := Calm;
    var look := if IsUrgent(remaining) then Amber else look;
    if IsCritical(remaining) then Red else look
  }

  function Label(remaining: int): (r: string)
    ensures r == "Hurry!" <==> remaining <= 10
    ensures r == "Time Left" <==> remaining > 10
  {
    if IsCritical(remaining) then "Hurry!" else "Time Left"
  }

  /** The background progress fill is drawn only in the calm band. */
  predicate ShowsProgressFill(remaining: int) {
    !IsCritical(remaining) && !IsUrgent(remaining)
  }

  /** With a non-negative elapsed count and limit, the remaining time lies in [0, limit]. */
  lemma RemainingBounds(seconds: int, limit: int)
    requires seconds >= 0 && limit >= 0
    ensures 0 <= Remaining(seconds, limit) <= limit
  {
  }

  /** The countdown never goes up as seconds elapse. */
  lemma RemainingNonIncreasing(earlier: int, later: int, limit: int)
    requires earlier <= later
    ensures Remaining(later, limit) <= Remaining(earlier, limit)
  {
  }

  lemma BandsDisjoint(remaining: int)
    ensures !(IsUrgent(remaining) && IsCritical(remaining))
  {
  }

  lemma ProgressFillIffCalm(remaining: int)
    ensures ShowsProgressFill(remaining) <==> LookFor(remaining) == Calm
  {
  }
}

=== FILE: types.dfy ===
/** The shapes the application passes around. */
module Types {
  import opened Dict

  /** `AppPhase`; the `Reviewing` phase is declared but never entered. */
  datatype Phase = Idle | Writing | Completed | Reviewing

  /** A finished essay as the result screen and the review prompt see it. */
  datatype EssayData = EssayData(topic: string, sections: Dict, totalTimeSeconds: nat)

  /** One saved session; `id` and `date` come from the clock. */
  datatype HistoryItem = HistoryItem(
    id: string,
    topic: string,
    sections: Dict,
    totalTimeSeconds: nat,
    date: string,
    wpm: nat)
}

=== FILE: writing_card.dfy ===
/** The statistics and labels of the card the writer types the current section into. */
module WritingCard {
  import opened Common
  import opened Text

  /** `Math.max(0, suggestedWordCount - wordCount)`. */
  function WordsRemaining(target: int, text: string): (r: nat)
    ensures r >= target - WordCount(text)
    ensures r == 0 || r == target - WordCount(text)
  {
    Max(0, target - WordCount(text))
  }

  /** The word-progress line: "N words to go" or "Target met". */
  datatype Progress = ToGo(words: nat) | TargetMet

  function ProgressLabel(target: int, text: string): (r: Progress)
    ensures r == TargetMet <==> WordCount(text) >= target
    ensures r.ToGo? ==> r.words == target - WordCount(text) && r.words > 0
  {
    var remaining := WordsRemaining(target, text);
    if remaining > 0 then ToGo(remaining) else TargetMet
  }

  /** The footer hint and the button caption. */
  datatype Captions = Captions(hint: string, button: string)

  function CaptionsFor(isLast: bool): (r: Captions)
    ensures r.button == "Submit Essay" <==> isLast
    ensures r.hint == "Final Section" <==> isLast
    ensures isLast ==> r == Captions("Final Section", "Submit Essay")
    ensures !isLast ==> r == Captions("Press Enter to continue", "Next Section")
  {
    if isLast then Captions("Final Section", "Submit Essay")
    else Captions("Press Enter to continue", "Next Section")
  }

  /** For a non-negative target the remaining count lies between zero and
      the target. */
  lemma WordsRemainingBounds(target: int, text: string)
    requires target >= 0
    ensures 0 <= WordsRemaining(target, text) <= target
  {
  }

  /** Blank text leaves the whole target to go. */
  lemma BlankTextLeavesWholeTarget(target: nat, text: string)
    requires Blank(text) && target > 0
    ensures ProgressLabel(target, text) == ToGo(target)
  {
    assert WordCount(text) == 0 by {
      WordCountZeroIffBlank(text);
    }
    assert WordsRemaining(target, text) == target;
  }
}
